=== FILE: README.md ===
# Page code generation and the page editor state, in Dafny

This project models two parts of the studio app.

**The page compiler** (`renderPageCode`). It turns one page of a studio
document into the source of a React component. A compile runs in phases:

- **Binding discovery** (`collectAllState`, `collectInterpolation`). Walks
  every descendant of the page and reads each bound expression and direct
  binding. For every bound (node, property) pair it allocates a `useState`
  hook. For every referenced derived state node it allocates a `useMemo`
  hook. It records, for each reference, the accessor text that reads it.
- **Property resolution** (`resolveProps`). Applies user properties, then
  data-query loaders and the spread attribute, then state-hook wiring with
  change handlers, then default values.
- **Node rendering** (`renderNode`, `renderNodeChildren`, `renderRoot`).
  Children are rendered before their parent. A node whose component is
  missing renders as `null`. In editor mode each node is wrapped in a
  `RuntimeStudioNode` marker that carries its id, and slot arguments are
  wrapped in `Slots`/`Placeholder` markers.
- **Emission** (`renderStateHooks`, `renderDerivedStateHooks`,
  `renderDataLoaderHooks`, `render`). Produces the hook declarations and
  seals the import table.

**The page editor reducer** (`pageEditorReducer`, `createPageEditorState`).
A closed-action state machine over an immutable editor record.

The compiler is modelled as pure functions over a `Context` record. Each
function returns the next context, or a `CompileError` for the cases where
the source throws. JavaScript objects with string keys are insertion-ordered entry lists
(`Records`). The document is a `Document` record with a `WellFormed`
predicate. The collaborators whose code is not part of this model are
parameters:

- the binding parser and formatter (`Services.interpolations`,
  `Services.formatBound`);
- `JSON.stringify` and `camelCase`;
- each component's `render`, modelled as the import requests it makes plus
  its text as a function of the aliases it gets back.

The emitted page is the structured `PageModule` (imports plus three lists of
`Declaration`s plus the root expression) rather than one string.

The main results:

- Discovery gives every reference to an element or a derived state node an
  accessor. Every accessor agrees with the hook tables.
- Every identifier the emitted module declares is allocated once from the
  module scope, so no name is declared twice (`PageAssembly.Render`,
  `PageAssembly.RenderPageCode`).
- After discovery, only a property can make a compile fail. Every
  `addImport` happens before the seal.
- User properties never overwrite rendered children. Only a state hook or a
  redirected default can replace one.
- Without editor markers, exactly the non-empty child slots appear, each in
  its proper shape: a fragment, an element or `null`.
- In editor mode the node id can be read back from every rendered node's
  instrumentation.
- Each reducer action changes only the fields it names. Ending a drag is
  idempotent, and only a replacement moves the editor to another page.

Behaviour of the code that the model keeps as written:

- `collectInterpolation` demands an `onChangeHandler` before it binds a
  property. It does not require `onChangeProp`.
- The hook phase of `resolveProps` overwrites whatever the user phase
  resolved under the same name.
- The default phase tests `result[propName]` but writes to
  `defaultValueProp ?? propName`. A default redirected to another property
  can therefore overwrite a property that was already resolved.
- Derived state hooks always print `React.useMemo` rather than the React
  alias. In the model the alias is always `React`, so the two agree.
- A binding to a reference that discovery never resolved yields an
  expression whose value is `undefined` (`UndefinedExpression`). The
  templates print it as `undefined`. The dependency list of a derived state
  hook prints it as empty text, because `Array.prototype.join` does.

## Model

| member | source | states |
|---|---|---|
| Scopes.Allocate | packages/studio-app/src/renderPageCode.ts:141-145 | a newly allocated identifier is non-empty and not yet in the scope; the scope afterwards records it; a free, non-empty suggestion is used as is |
| Imports.Add | packages/studio-app/src/renderPageCode.ts:469-475 | adding to a sealed table fails with `ImportsSealed`; an existing (source, imported) pair returns its alias and changes nothing; a new pair gets a fresh alias and is appended |
| Imports.Seal | packages/studio-app/src/renderPageCode.ts:535 | the sealed table keeps every entry |
| Text.SplitJoin | packages/studio-app/src/renderPageCode.ts:108 | splitting a '.'-join of dot-free pieces gives the pieces back |
| Text.JoinSplit | packages/studio-app/src/renderPageCode.ts:155 | joining the pieces of a split with the same separator gives the string back |
| CompileContext.StateKeyInjective | packages/studio-app/src/renderPageCode.ts:121 | state ids `nodeId.prop` of different (node, property) pairs never collide while the property has no '.' |
| CompileContext.NewContext | packages/studio-app/src/renderPageCode.ts:55-73 | a fresh compile imports React as `React`, and in editor mode only also imports the runtime as `__studioRuntime`; the tables start empty and the invariant holds |
| CompileContext.UseDataLoader | packages/studio-app/src/renderPageCode.ts:75-79 | registers one loader under a fresh variable, named after the query when free; imports and bindings unchanged; the invariant is kept |
| CompileContext.GetComponentDefinition | packages/studio-app/src/renderPageCode.ts:81-89 | the page uses the `Page` component, an element uses its own component, and a derived state node has none |
| CompileContext.PropTypesOf | packages/studio-app/src/renderPageCode.ts:172-176 | exactly the defined arguments have a property type, and it is the argument's `typeDef` |
| CompileContext.GetPropTypes | packages/studio-app/src/renderPageCode.ts:166-182 | an element's defined arguments, or none when its component is missing, each argument mapped to its catalog `typeDef`; a derived node's own argument types; none for the page |
| CompileContext.AddImport | packages/studio-app/src/renderPageCode.ts:469-475 | fails exactly when the table is sealed; otherwise the alias is registered for the pair; bindings and setup unchanged; the invariant is kept |
| StateCollection.ControlledArgType | packages/studio-app/src/renderPageCode.ts:125-139 | succeeds exactly for a bindable property; otherwise fails with a missing component, a missing argument type or a non-controlled property, each in exactly its own case |
| StateCollection.AllocateStateHook | packages/studio-app/src/renderPageCode.ts:125-152 | a bindable property gets two distinct fresh identifiers and the argument's default value, appended under its state key; the state variable is `camelCase(nodeName, prop)` and the setter `camelCase('set', nodeName, prop)` whenever those are free; the invariant is kept |
| StateCollection.CollectElementRef | packages/studio-app/src/renderPageCode.ts:118-155 | an existing hook is reused and the scope is untouched; otherwise a new hook is allocated or the compile fails; the accessor recorded is `[state, ...subPath].join('.')` |
| StateCollection.MemoFor | packages/studio-app/src/renderPageCode.ts:157-161 | a derived node's memo hook is reused if present, otherwise a fresh name is allocated and appended, the node's own name whenever it is free; the invariant and "memos name derived nodes" are kept |
| StateCollection.CollectDerivedRef | packages/studio-app/src/renderPageCode.ts:156-162 | the reference's accessor is the node's memo variable, named after the node when that name is free; the state hooks are untouched |
| StateCollection.CollectInterpolation | packages/studio-app/src/renderPageCode.ts:107-164 | fails exactly when an element's property has no hook and cannot be bound; an unknown name or a page changes nothing; on success the reference is covered, earlier accessors are kept and stay consistent, and the invariant holds |
| StateCollection.CollectReferences | packages/studio-app/src/renderPageCode.ts:97-99 | every interpolation of a template is covered, in order, and consistency and the invariant are kept |
| StateCollection.CollectProp | packages/studio-app/src/renderPageCode.ts:94-103 | a template that does not parse aborts with `ParseError`; otherwise every reference of the property is covered |
| StateCollection.CollectProps | packages/studio-app/src/renderPageCode.ts:93-103 | any unparsable template among a node's properties aborts; on success every reference is covered |
| StateCollection.CollectNodes | packages/studio-app/src/renderPageCode.ts:92-104 | on success every reference made by the given nodes is covered, consistency holds, and only hooks, accessors and scope changed |
| StateCollection.CollectAllState | packages/studio-app/src/renderPageCode.ts:91-105 | on success every reference in the page's descendants is covered, every accessor agrees with the hook tables, and the invariant is kept |
| StateCollection.AllStateKeepsMemos | packages/studio-app/src/renderPageCode.ts:156-161 | after discovery every memo hook belongs to a derived state node of the document |
| Printers.RenderJsExpression | packages/studio-app/src/renderPageCode.ts:440-448 | absent is `undefined`; a fragment is wrapped in `<>...</>`; an `undefined` value prints as `undefined` inside the templates; other expressions print their text |
| Printers.RenderJsxContent | packages/studio-app/src/renderPageCode.ts:455-463 | absent is empty; elements and fragments print as is; a plain expression, even an `undefined` one, is brace-wrapped |
| Printers.JsxContentVersusExpression | packages/studio-app/src/renderPageCode.ts:440-463 | the two printers agree up to delimiters: braces for expressions, `<>...</>` for fragments, nothing for elements |
| Printers.AttributesMatchMembers | packages/studio-app/src/renderPageCode.ts:399-432 | the attribute list and the object literal print each property at the same position with the same expression text, and the spread identically |
| Printers.RenderProps | packages/studio-app/src/renderPageCode.ts:399-411 | no properties print as nothing and one property as its single attribute |
| Printers.RenderPropsAsObject | packages/studio-app/src/renderPageCode.ts:419-432 | the result is always a braced object literal; no properties print as `{}` and one as its single member |
| Printers.RenderPropsAppend | packages/studio-app/src/renderPageCode.ts:399-411 | attributes print property by property in order: two lists print as the first, a space, the second |
| Printers.RenderPropsAsObjectAppend | packages/studio-app/src/renderPageCode.ts:419-432 | object members print property by property in order: two lists print as the first literal's members, a comma, the second's |
| Printers.RenderComponent | packages/studio-app/src/renderPageCode.ts:290-295 | without children a self-closing tag; otherwise the children as JSX content; the other properties as attributes. Nothing in renderPageCode.ts calls this method, and no other member of the model uses it either |
| Printers.StudioNodeMarkupCarriesId | packages/studio-app/src/renderPageCode.ts:373-378 | the node id reads back from the instrumentation markup for every id without a double quote |
| PropResolution.SpreadWith | packages/studio-app/src/renderPageCode.ts:206 | the spread attributes gain `{...variable}`, after the previous ones and a space |
| PropResolution.ResolveUserProp | packages/studio-app/src/renderPageCode.ts:194-233 | undeclared, absent or already resolved properties are skipped; a bound data query fails; a non-empty string query registers one loader and extends the spread; constants, templates and bindings resolve under their own name; unknown tags are ignored |
| PropResolution.ResolveUserProps | packages/studio-app/src/renderPageCode.ts:193-234 | children are never overwritten; only declared non-query properties are added under their own name; errors are property errors |
| PropResolution.BoundDataQueryAborts | packages/studio-app/src/renderPageCode.ts:200-203 | any unresolved data query with a non-constant value aborts the whole user phase |
| PropResolution.ChangeBinding | packages/studio-app/src/renderPageCode.ts:256-269 | without a change handler the change property is bound to the setter itself; with one, to the closure `(params) => setState(valueGetter)` |
| Printers.ChangeClosureCallsSetter | packages/studio-app/src/renderPageCode.ts:257-263 | the change closure ends by calling the setter on the getter's value, and its parameter list reads back when no parameter contains `)` |
| PropResolution.WireStateHook | packages/studio-app/src/renderPageCode.ts:244-270 | a hooked argument is bound to its state variable, and its change property to the change binding; every other property is kept |
| PropResolution.WireStateHooks | packages/studio-app/src/renderPageCode.ts:237-272 | only hooked arguments and their change properties are written; keys only grow |
| PropResolution.ApplyDefault | packages/studio-app/src/renderPageCode.ts:277-283 | an unresolved argument with a default writes the stringified default under `defaultValueProp ?? name`; nothing else changes |
| PropResolution.ApplyDefaults | packages/studio-app/src/renderPageCode.ts:275-285 | a resolved property changes only through a default redirected to it from another argument; every change targets some default |
| PropResolution.ResolveProps | packages/studio-app/src/renderPageCode.ts:188-288 | a child survives resolution unless a state hook or a redirected default claims its key; errors are property errors; bindings and imports unchanged |
| NodeRendering.ApplyImports | packages/studio-app/src/renderPageCode.ts:368 | a component's imports fail exactly when the table is sealed; otherwise each request gets an alias registered for its (source, imported) pair |
| NodeRendering.Wrap | packages/studio-app/src/renderPageCode.ts:371-380 | a rendered node is a JSX element; outside the editor it is the component's text; in the editor its id reads back from it |
| NodeRendering.Instantiate | packages/studio-app/src/renderPageCode.ts:366-380 | resolving, rendering and wrapping a node with a component gives a JSX element carrying its id in the editor; errors are property errors while the table is open |
| NodeRendering.RenderNode | packages/studio-app/src/renderPageCode.ts:357-381 | a node without a component renders as `null` and changes nothing; otherwise a JSX element whose id reads back in the editor |
| NodeRendering.RenderableSlots | packages/studio-app/src/renderPageCode.ts:299-303 | a page exposes only its `children` slot, other nodes all their slots; every child lies below the node |
| NodeRendering.RenderNodeChildren | packages/studio-app/src/renderPageCode.ts:297-355 | outside the editor exactly the non-empty slots appear, each in its proper shape; in the editor every slot argument is a JSX element marker |
| NodeRendering.RenderSlots | packages/studio-app/src/renderPageCode.ts:306-319 | a slot key appears exactly when it already did or the slot is non-empty; empty slots change nothing |
| NodeRendering.RenderSlot | packages/studio-app/src/renderPageCode.ts:307-317 | one child's entry is exactly that child's own rendering (or its error); several children form the fragment of `RenderChildList`'s expressions, in order; none leave the slot absent |
| NodeRendering.Fragment | packages/studio-app/src/renderPageCode.ts:311-316 | when no child's JSX content spans lines, splitting the fragment at line breaks gives back each child's content, in order |
| NodeRendering.RenderChildList | packages/studio-app/src/renderPageCode.ts:313-315 | one rendered expression per child: `null` exactly for children without a component, otherwise a JSX element whose node id, in the editor, reads back from its runtime wrapper |
| NodeRendering.MarkSlots | packages/studio-app/src/renderPageCode.ts:321-352 | every slot argument becomes a JSX element marker; every other property is kept |
| NodeRendering.MarkSlotsWraps | packages/studio-app/src/renderPageCode.ts:325-349 | each slot argument's marker is `Slots` or `Placeholder` around exactly its previous content |
| NodeRendering.RenderRoot | packages/studio-app/src/renderPageCode.ts:390-393 | a page without a component renders as `null`; otherwise the root is the page node's own rendered element, and in the editor its node id reads back from the runtime wrapper when the id holds no double quote; errors are property errors while the table is open |
| PageAssembly.InvNoDuplicates | packages/studio-app/src/renderPageCode.ts:141-159 | identifiers allocated once each from the module scope are pairwise distinct |
| PageAssembly.RenderStateHooks | packages/studio-app/src/renderPageCode.ts:477-487 | one `useState` per hook in allocation order with its stringified default; the declared names are exactly the hook identifiers |
| PageAssembly.DepsOf | packages/studio-app/src/renderPageCode.ts:497-507 | one dependency per resolved argument (the spread is already removed): at every position the getter's argument object holds `name: dep`, except that an `undefined` argument is passed as `undefined` and listed as empty text, as `join` prints it |
| PageAssembly.DerivedHook | packages/studio-app/src/renderPageCode.ts:491-509 | a non-derived node fails with `NotDerivedState`; otherwise one `useMemo` of the memo variable through the getter imported from the node's module; its argument object and dependency list both come from the node's own `resolveProps` result with the spread removed |
| PageAssembly.RenderDerivedStateHooks | packages/studio-app/src/renderPageCode.ts:489-512 | when every memo names a derived node and the table is open, only a property can fail |
| PageAssembly.DerivedStateHooksDeclare | packages/studio-app/src/renderPageCode.ts:489-512 | the derived hooks declare exactly the memo variables, in order |
| PageAssembly.DerivedHooksMatchMemos | packages/studio-app/src/renderPageCode.ts:489-512 | one memo call per memo, in order: it declares the memo variable, its getter is the alias imported from the node's module, and its argument object and dependency list come from one resolved argument list without the spread |
| PageAssembly.LoaderDeclarations | packages/studio-app/src/renderPageCode.ts:520-525 | one `useDataQuery` per loader with the stringified query id; the declared names are exactly the loader variables |
| PageAssembly.PrintedDeclarationDeclares | packages/studio-app/src/renderPageCode.ts:484-523 | each printed hook line (`useState`, `React.useMemo`, `useDataQuery`) names exactly the identifiers the declaration introduces, read back from `const [a, b]` or `const a` |
| PageAssembly.RenderDataLoaderHooks | packages/studio-app/src/renderPageCode.ts:514-526 | no loaders means no declarations and no import; otherwise fails exactly when sealed, and the declarations are one `useDataQuery(JSON.stringify(queryId))` call per loader, in order, through the imported `useDataQuery` |
| PageAssembly.Emit | packages/studio-app/src/renderPageCode.ts:530-537 | the emitted module returns the page's rendered root and declares the context's state hooks, one memo call per memo through the getter imported from its node's module, and one `useDataQuery` call per registered loader; its imports are the sealed table; its declared names are exactly the context's identifiers, without duplicates |
| PageAssembly.Render | packages/studio-app/src/renderPageCode.ts:528-551 | rendering runs on the bindings discovery found; the module returns the page rendered over them, with their state hooks, a memo call per discovered memo and a data query call per registered loader; in the editor the root reads back the page id; after discovery only a property can fail; no identifier is declared twice |
| PageAssembly.RenderPageCode | packages/studio-app/src/renderPageCode.ts:554-569 | a missing or non-page node fails with `NotPage`; the emitted module imports React first, and the runtime second in editor mode; its hook groups are one memo call per discovered memo and one `useDataQuery` call per loader the page registered; in the editor the returned root reads back the page id; no identifier is declared twice |
| PageEditor.CreatePageEditorState | packages/studio-app/src/components/StudioEditor/PageFileEditor/PageEditorProvider.tsx:51-62 | a new editor is on the given page with no selection, the catalog tab, no drag, no highlight and an empty view state |
| PageEditor.UpdateOrCreate | packages/studio-app/src/components/StudioEditor/PageFileEditor/PageEditorProvider.tsx:106 | creating takes the new location; updating a location with itself, or one without an index with a complete location, gives the new location |
| PageEditor.UpdateOrCreateOverrides | packages/studio-app/src/components/StudioEditor/PageFileEditor/PageEditorProvider.tsx:106 | overlaying the same location twice is overlaying it once; a later location carrying an index overrides an earlier update entirely |
| PageEditor.PageEditorReducer | packages/studio-app/src/components/StudioEditor/PageFileEditor/PageEditorProvider.tsx:64-118 | a replacement returns exactly its state; every other action keeps the page and every field it does not name, and sets the named fields as the action says; drag-over keeps "a highlighted slot implies a highlighted layout" |
| PageEditor.DragEndIdempotent | packages/studio-app/src/components/StudioEditor/PageFileEditor/PageEditorProvider.tsx:97-102 | ending a drag twice is the same as ending it once |
| PageEditor.FirstDragStartWins | packages/studio-app/src/components/StudioEditor/PageFileEditor/PageEditorProvider.tsx:89-96 | a second drag start while dragging is ignored |
| PageEditor.Replay | packages/studio-app/src/components/StudioEditor/PageFileEditor/PageEditorProvider.tsx:69-71 | after a sequence of actions ending in a replacement, the state is the replacement |
| PageEditor.ReplayKeepsPage | packages/studio-app/src/components/StudioEditor/PageFileEditor/PageEditorProvider.tsx:72-117 | any sequence of actions without a replacement stays on the same page |
| PageEditor.ReplayKeepsConsistent | packages/studio-app/src/components/StudioEditor/PageFileEditor/PageEditorProvider.tsx:97-108 | from a consistent state, replacing only with consistent states, a highlighted slot always comes with a highlighted layout |

## Left out

- Pretty-printing of the output (`prettier`, lines 571-576): a foreign formatter.
- The exact whitespace and line breaks inside the emitted templates are not modelled.
- The text of the emitted `App` component and of the import block (`Imports.render`) is not modelled. The model produces the structured `PageModule` instead. The import table's source file is not part of this model.
- The binding parser and formatter, `camelCase`, `JSON.stringify`, and each component's `render` body are parameters. Their code is not part of this model.
- `Scope` is not part of this model. Its stand-in appends `_` until a name is free.
- `console.warn` for unknown names and unknown property tags is a side effect. The model keeps the control flow but not the message.
- JavaScript truthiness corner cases are not modelled. Examples: an empty-string `$spread`; a key that is present but holds `undefined` rather than a property expression; the `if (!state)` and `if (stateVar)` guards in the hook printers. Objects are insertion-ordered lists that never hold `undefined`.
- Numbers in constant values are integers.
- JavaScript lists integer-like object keys ("0", "12") before all other keys, in ascending numeric order, whatever order they were inserted in. The model keeps pure insertion order. This would change the iteration order of the memo table (keyed by node id), of argument types and of properties whose names are integer-like.
- PageEditor.UpdateOrCreate: `updateOrCreate` comes from the immutability utilities, which are not part of this model. Its stand-in lays the new location's keys over the previous one's, and its contract states only the laws of that overlay.
- The React context, `useReducer`, the provider component and `createPageEditorApi` (PageEditorProvider.tsx:120-190): UI plumbing and dispatch wrappers.
- The reducer's `default` branch (line 115-116) is unreachable: the action type is closed.
- The editor record's constant `type: 'page'` tag is the constructor `PageEditorState` itself, so "`type` unchanged" holds by construction.
- The per-node view information is opaque: the editor state holds `viewState: map<NodeId, V>`, and only the per-node value type `V` is a type parameter. The reducer only stores and replaces the map.
- PropResolution.ResolveProps: states which seed keys may change and why, but not every final value. The final values are stated per phase by `ResolveUserProp`, `WireStateHook`, `ApplyDefault` and `MarkSlotsWraps`.
- StateCollection.CollectAllState: states the success properties. Its failures are characterized per reference by `CollectInterpolation` and per template by `CollectProp`.
- PageAssembly.Render: the "only a property can fail" guarantee assumes that discovery succeeded and that every memo hook names a derived node. `AllStateKeepsMemos` establishes the latter for a fresh compile.
- NodeRendering.RenderNodeChildren: in either mode it gives each slot's entry by its shape (absent, `null`, an element or a fragment), not as the rendering of the slot's children. In editor mode it states that every non-empty slot and every slot argument is present; `MarkSlotsWraps` states the markers' content.
- NodeRendering.RenderSlots: states each slot's entry only by its shape. `RenderSlot` and `RenderChildList` state a slot's content, but each slot renders in the context the earlier slots leave, and the slot loop's contract does not name those intermediate contexts.

=== FILE: base.dfy ===
/** Failure-compatible wrappers shared by every module: `Option` stands for a
    JavaScript value that may be `undefined`/`null`, `Result` for a computation
    that may throw a fatal error and abort the whole compile. */
module Base {

  datatype Option<+T> = None | Some(value: T) {

    /** The wrapped value, or `default` when absent (JavaScript's `??`). */
    function GetOr(default: T): T {
      match this
      case Some(v) => v
      case None => default
    }
  }

  datatype Result<+T, +E> = Ok(value: T) | Err(error: E) {

    predicate IsFailure() {
      Err?
    }

    function PropagateFailure<U>(): Result<U, E>
      requires Err?
    {
      Err(error)
    }

    function Extract(): T
      requires Ok?
    {
      value
    }
  }
}

=== FILE: compile_context.dfy ===
/** The state of one compile (the `Context` class): the module scope, the
    import table, the registered data loaders, the state and memo hooks found
    by binding discovery, and the map from each binding reference to the
    accessor text that reads it. Every operation is a pure function from one
    context to the next. */
module CompileContext {
  import opened Base
  import opened Records
  import opened Types
  import opened StudioDom
  import opened Imports
  import Scopes
  import Text

  /** A `useState` hook: its state and setter identifiers and its initial value. */
  datatype StateHook = StateHook(state: string, setState: string, defaultValue: Option<Value>)

  /** A registered data query and the variable that holds its result. */
  datatype DataLoader = DataLoader(queryId: string, variable: string)

  /** What a compile reads and never changes: the document, the component
      catalog keyed by component name, and the opaque services. */
  datatype Env = Env(dom: Document, catalog: map<string, ComponentDef>, services: Services)

  /** `stateHooks` is keyed by `StateKey(nodeId, prop)`, `memoHooks` by the id
      of a derived state node, `state` by the full reference string. */
  datatype Context = Context(
    page: NodeId,
    editor: bool,
    scope: set<string>,
    imports: ImportTable,
    dataLoaders: seq<DataLoader>,
    reactAlias: string,
    runtimeAlias: string,
    stateHooks: Entries<StateHook>,
    memoHooks: Entries<string>,
    state: map<string, string>)

  /** The key of the state hook backing property `prop` of node `nodeId`. */
  function StateKey(nodeId: NodeId, prop: string): string {
    nodeId + "." + prop
  }

  /** Keys of different (node, property) pairs never collide while the
      property name, a piece of a split reference, has no '.'. */
  lemma StateKeyInjective(a: NodeId, p: string, b: NodeId, q: string)
    requires '.' !in p && '.' !in q
    requires StateKey(a, p) == StateKey(b, q)
    ensures a == b && p == q
  {
    Text.LastSeparatorSplits(a, p, b, q, '.');
  }

  // ----- The identifiers a compile declares -----

  function HookIdents(e: Entries<StateHook>): seq<string>
    decreases |e|
  {
    if |e| == 0 then []
    else HookIdents(e[..|e| - 1]) + [e[|e| - 1].1.state, e[|e| - 1].1.setState]
  }

  function MemoIdents(e: Entries<string>): seq<string>
    decreases |e|
  {
    if |e| == 0 then [] else MemoIdents(e[..|e| - 1]) + [e[|e| - 1].1]
  }

  function LoaderIdents(ls: seq<DataLoader>): seq<string>
    decreases |ls|
  {
    if |ls| == 0 then [] else LoaderIdents(ls[..|ls| - 1]) + [ls[|ls| - 1].variable]
  }

  function AliasIdents(es: seq<ImportEntry>): seq<string>
    decreases |es|
  {
    if |es| == 0 then [] else AliasIdents(es[..|es| - 1]) + [es[|es| - 1].alias]
  }

  /** Every identifier the emitted module declares at module level: hook
      pairs, memoized derived values, data loader variables, import aliases. */
  function Idents(ctx: Context): seq<string> {
    HookIdents(ctx.stateHooks) + MemoIdents(ctx.memoHooks)
      + LoaderIdents(ctx.dataLoaders) + AliasIdents(ctx.imports.entries)
  }

  /** Each name occurs once and was allocated in `scope`. */
  predicate DeclaredOnce(names: seq<string>, scope: set<string>)
    decreases |names|
  {
    |names| == 0 || (names[0] in scope && names[0] !in names[1..] && DeclaredOnce(names[1..], scope))
  }

  /** The same as a multiset bounded by a set, which holds each element at
      most once. */
  lemma {:induction false} DeclaredOnceMultiset(names: seq<string>, scope: set<string>)
    ensures DeclaredOnce(names, scope) <==> multiset(names) <= multiset(scope)
    decreases |names|
  {
    if |names| > 0 {
      var a, rest := names[0], names[1..];
      DeclaredOnceMultiset(rest, scope);
      assert names == [a] + rest;
      assert multiset(names) == multiset{a} + multiset(rest);
      if multiset(names) <= multiset(scope) {
        assert multiset(names)[a] >= 1;
        assert a in scope;
        assert multiset(rest)[a] == 0;
        assert multiset(rest) <= multiset(scope);
      }
      if DeclaredOnce(names, scope) {
        assert multiset(rest)[a] == 0;
        forall x
          ensures multiset(names)[x] <= multiset(scope)[x]
        {
          if x != a {
            assert multiset(names)[x] == multiset(rest)[x];
          }
        }
      }
    }
  }

  /** The compile invariant: every declared identifier was allocated in the
      module scope and no two declarations share a name; no hook key occurs
      twice. */
  predicate Inv(ctx: Context) {
    && DeclaredOnce(Idents(ctx), ctx.scope)
    && Distinct(ctx.stateHooks)
    && Distinct(ctx.memoHooks)
  }

  /** The invariant only reads the declared identifiers, the scope and the hook tables. */
  lemma InvFrame(c: Context, c': Context)
    requires c'.scope == c.scope && c'.stateHooks == c.stateHooks && c'.memoHooks == c.memoHooks
    requires c'.dataLoaders == c.dataLoaders && c'.imports.entries == c.imports.entries
    ensures Inv(c) ==> Inv(c')
  {
    assert Idents(c') == Idents(c);
  }

  lemma AddFresh(scope: set<string>, x: string)
    requires x !in scope
    ensures multiset(scope + {x}) == multiset(scope) + multiset{x}
  {
    forall y
      ensures multiset(scope + {x})[y] == (multiset(scope) + multiset{x})[y]
    {
    }
  }

  /** Declaring a freshly allocated name anywhere keeps every name declared once. */
  lemma DeclareFresh(pre: seq<string>, post: seq<string>, scope: set<string>, x: string)
    requires DeclaredOnce(pre + post, scope) && x !in scope
    ensures DeclaredOnce(pre + [x] + post, scope + {x})
  {
    DeclaredOnceMultiset(pre + post, scope);
    DeclaredOnceMultiset(pre + [x] + post, scope + {x});
    assert multiset(pre + [x] + post) == multiset(pre + post) + multiset{x};
    AddFresh(scope, x);
  }

  /** Only the hook, memo and binding tables hold what discovery found. */
  predicate SameBindings(c: Context, c': Context) {
    && c'.stateHooks == c.stateHooks
    && c'.memoHooks == c.memoHooks
    && c'.state == c.state
  }

  /** The fixed parts of a context. */
  predicate SameSetup(c: Context, c': Context) {
    && c'.page == c.page
    && c'.editor == c.editor
    && c'.reactAlias == c.reactAlias
    && c'.runtimeAlias == c.runtimeAlias
  }

  /** The scope and the import table only grow. */
  predicate Grows(c: Context, c': Context) {
    && c.scope <= c'.scope
    && c.imports.entries <= c'.imports.entries
    && c.dataLoaders <= c'.dataLoaders
  }

  /** What every compile step after discovery keeps: the bindings, the setup, growth of
      scope, imports and loaders, an open import table, and the identifier
      invariant. */
  predicate Continues(c: Context, c': Context) {
    && SameBindings(c, c') && SameSetup(c, c') && Grows(c, c')
    && (!c.imports.sealed ==> !c'.imports.sealed)
    && (Inv(c) ==> Inv(c'))
  }

  lemma ContinuesTrans(a: Context, b: Context, c: Context)
    requires Continues(a, b) && Continues(b, c)
    ensures Continues(a, c)
  {
  }

  /** `addImport(source, imported, suggestedName)`. */
  function AddImport(ctx: Context, source: string, imported: string, suggestedName: string)
    : (r: Result<(string, Context), CompileError>)
    ensures r.Err? <==> ctx.imports.sealed
    ensures r.Err? ==> r.error == ImportsSealed(source)
    ensures r.Ok? ==> Lookup(r.value.1.imports.entries, source, imported) == Some(r.value.0)
    ensures r.Ok? && Lookup(ctx.imports.entries, source, imported).Some? ==> r.value.1 == ctx
    ensures r.Ok? ==> r.value.0 in r.value.1.scope || r.value.1 == ctx
    ensures r.Ok? ==> SameBindings(ctx, r.value.1) && SameSetup(ctx, r.value.1) && Grows(ctx, r.value.1)
    ensures r.Ok? ==> r.value.1.dataLoaders == ctx.dataLoaders && !r.value.1.imports.sealed
    ensures r.Ok? && Lookup(ctx.imports.entries, source, imported).None? ==>
      && r.value.1.imports.entries == ctx.imports.entries + [ImportEntry(source, imported, r.value.0)]
      && r.value.1.scope == ctx.scope + {r.value.0}
      && (suggestedName != "" && suggestedName !in ctx.scope ==> r.value.0 == suggestedName)
    ensures r.Ok? && Inv(ctx) ==> Inv(r.value.1)
  {
    var (alias, imports', scope') :- Imports.Add(ctx.imports, ctx.scope, source, imported, suggestedName);
    var ctx' := ctx.(imports := imports', scope := scope');
    AddImportKeepsInv(ctx, ctx', source, imported, alias);
    Ok((alias, ctx'))
  }

  lemma AddImportKeepsInv(ctx: Context, ctx': Context, source: string, imported: string, alias: string)
    requires Lookup(ctx.imports.entries, source, imported).None? ==>
      && alias !in ctx.scope
      && ctx'.scope == ctx.scope + {alias}
      && ctx'.imports.entries == ctx.imports.entries + [ImportEntry(source, imported, alias)]
    requires Lookup(ctx.imports.entries, source, imported).Some? ==> ctx' == ctx
    requires SameBindings(ctx, ctx') && ctx'.dataLoaders == ctx.dataLoaders
    ensures Inv(ctx) ==> Inv(ctx')
  {
    DeclaredOnceMultiset(Idents(ctx), ctx.scope);
    DeclaredOnceMultiset(Idents(ctx'), ctx'.scope);
    if Lookup(ctx.imports.entries, source, imported).None? {
      assert AliasIdents(ctx'.imports.entries) == AliasIdents(ctx.imports.entries) + [alias] by {
        assert ctx'.imports.entries[..|ctx'.imports.entries| - 1] == ctx.imports.entries;
      }
      assert multiset(Idents(ctx')) == multiset(Idents(ctx)) + multiset{alias};
      AddFresh(ctx.scope, alias);
    }
  }

  lemma UseDataLoaderKeepsInv(ctx: Context, ctx': Context, queryId: string, variable: string)
    requires variable !in ctx.scope
    requires ctx'.scope == ctx.scope + {variable}
    requires ctx'.dataLoaders == ctx.dataLoaders + [DataLoader(queryId, variable)]
    requires SameBindings(ctx, ctx') && ctx'.imports == ctx.imports
    ensures Inv(ctx) ==> Inv(ctx')
  {
    DeclaredOnceMultiset(Idents(ctx), ctx.scope);
    DeclaredOnceMultiset(Idents(ctx'), ctx'.scope);
    assert LoaderIdents(ctx'.dataLoaders) == LoaderIdents(ctx.dataLoaders) + [variable] by {
      assert ctx'.dataLoaders[..|ctx'.dataLoaders| - 1] == ctx.dataLoaders;
    }
    assert multiset(Idents(ctx')) == multiset(Idents(ctx)) + multiset{variable};
    AddFresh(ctx.scope, variable);
  }

  /** `useDataLoader(queryId)`: a fresh variable for the query, registered
      for declaration. */
  function UseDataLoader(ctx: Context, queryId: string): (r: (string, Context))
    ensures r.0 !in ctx.scope && r.0 != ""
    ensures queryId != "" && queryId !in ctx.scope ==> r.0 == queryId
    ensures r.1.scope == ctx.scope + {r.0}
    ensures r.1.dataLoaders == ctx.dataLoaders + [DataLoader(queryId, r.0)]
    ensures r.1.imports == ctx.imports
    ensures SameBindings(ctx, r.1) && SameSetup(ctx, r.1)
    ensures Inv(ctx) ==> Inv(r.1)
  {
    var (variable, scope') := Scopes.Allocate(ctx.scope, queryId);
    var ctx' := ctx.(scope := scope', dataLoaders := ctx.dataLoaders + [DataLoader(queryId, variable)]);
    UseDataLoaderKeepsInv(ctx, ctx', queryId, variable);
    (variable, ctx')
  }

  const ReactModule: string := "react"
  const RuntimeModule: string := "@mui/studio-core/runtime"

  /** The constructor: React is always imported; the studio runtime only for
      the editor. Both aliases are the suggested names, since the scope is
      still empty. */
  function NewContext(page: NodeId, editor: bool): (ctx: Context)
    ensures ctx.page == page && ctx.editor == editor
    ensures ctx.reactAlias == "React"
    ensures editor ==> ctx.runtimeAlias == "__studioRuntime"
    ensures !editor ==> ctx.runtimeAlias == "undefined"
    ensures ctx.imports.entries == [ImportEntry(ReactModule, "default", "React")]
      + (if editor then [ImportEntry(RuntimeModule, "*", "__studioRuntime")] else [])
    ensures !ctx.imports.sealed
    ensures ctx.stateHooks == [] && ctx.memoHooks == [] && ctx.state == map[] && ctx.dataLoaders == []
    ensures Inv(ctx)
  {
    var empty := Context(page, editor, {}, EmptyTable, [], "undefined", "undefined", [], [], map[]);
    assert Idents(empty) == [];
    assert Lookup(empty.imports.entries, ReactModule, "default").None?;
    var withReact := AddImport(empty, ReactModule, "default", "React");
    var (reactAlias, c1) := withReact.value;
    var c2 := c1.(reactAlias := reactAlias);
    assert Idents(c2) == Idents(c1);
    if editor then
      assert c2.scope == {"React"};
      assert Lookup(c2.imports.entries, RuntimeModule, "*").None?;
      var withRuntime := AddImport(c2, RuntimeModule, "*", "__studioRuntime");
      var (runtimeAlias, c3) := withRuntime.value;
      var c4 := c3.(runtimeAlias := runtimeAlias);
      assert Idents(c4) == Idents(c3);
      c4
    else c2
  }

  /** `getComponentDefinition(node)`: the page uses the `Page` component, an
      element its own component, a derived state node has none. */
  function GetComponentDefinition(env: Env, node: Node): (r: Option<ComponentDef>)
    ensures node.DerivedState? ==> r.None?
    ensures node.Page? ==> (r.Some? <==> "Page" in env.catalog)
    ensures node.Element? ==> (r.Some? <==> node.component in env.catalog)
    ensures node.Element? && r.Some? ==> r.value == env.catalog[node.component]
  {
    match node
    case Page(_, _, _) => if "Page" in env.catalog then Some(env.catalog["Page"]) else None
    case Element(_, _, component, _) => if component in env.catalog then Some(env.catalog[component]) else None
    case DerivedState(_, _, _, _) => None
  }

  /** The declared property types of a component: one per defined argument. */
  function PropTypesOf(argTypes: Entries<Option<ArgType>>): (r: map<string, PropType>)
    ensures forall k :: k in r <==> Get(argTypes, k).Some? && Get(argTypes, k).value.Some?
    ensures forall k :: k in r ==> r[k] == Get(argTypes, k).value.value.typeDef
    decreases |argTypes|
  {
    if |argTypes| == 0 then map[]
    else
      var rest := PropTypesOf(argTypes[1..]);
      match argTypes[0].1
      case Some(argType) => rest[argTypes[0].0 := argType.typeDef]
      case None => rest - {argTypes[0].0}
  }

  /** `getPropTypes(node)`: an element's declared arguments (none when its
      component is missing), a derived state node's own argument types, and
      nothing for the page. */
  function GetPropTypes(env: Env, node: Node): (r: map<string, PropType>)
    ensures node.Page? ==> r == map[]
    ensures node.DerivedState? ==> r == node.argTypes
    ensures node.Element? && node.component !in env.catalog ==> r == map[]
    ensures node.Element? && node.component in env.catalog ==>
      forall k :: k in r <==> Get(env.catalog[node.component].argTypes, k).Some? && Get(env.catalog[node.component].argTypes, k).value.Some?
    ensures node.Element? && node.component in env.catalog ==>
      forall k :: k in r ==> r[k] == Get(env.catalog[node.component].argTypes, k).value.value.typeDef
  {
    match node
    case Element(_, _, _, _) =>
      (match GetComponentDefinition(env, node)
       case Some(component) => PropTypesOf(component.argTypes)
       case None => map[])
    case DerivedState(_, _, argTypes, _) => argTypes
    case Page(_, _, _) => map[]
  }
}

=== FILE: imports.dfy ===
/** The module dependency table (`codeGen/Imports`): one entry per distinct
    (source module, imported symbol), each with a scope-unique local alias.
    The table is sealed once, after which adding is a fatal error. */
module Imports {
  import opened Base
  import opened Types
  import Scopes

  datatype ImportEntry = ImportEntry(source: string, imported: string, alias: string)

  datatype ImportTable = ImportTable(entries: seq<ImportEntry>, sealed: bool)

  const EmptyTable: ImportTable := ImportTable([], false)

  /** The alias registered for (`source`, `imported`), if any. */
  function Lookup(entries: seq<ImportEntry>, source: string, imported: string): (r: Option<string>)
    ensures r.Some? <==> exists i :: 0 <= i < |entries| && entries[i].source == source && entries[i].imported == imported
    ensures r.Some? ==> ImportEntry(source, imported, r.value) in entries
    decreases |entries|
  {
    if |entries| == 0 then None
    else if entries[0].source == source && entries[0].imported == imported then Some(entries[0].alias)
    else
      var r := Lookup(entries[1..], source, imported);
      assert forall i :: 1 <= i < |entries| ==> entries[i] == entries[1..][i - 1];
      r
  }

  /** `imports.add(source, imported, suggestedName)` against `scope`: the alias,
      the new table and the new scope. */
  function Add(table: ImportTable, scope: set<string>, source: string, imported: string, suggestedName: string)
    : (r: Result<(string, ImportTable, set<string>), CompileError>)
    ensures r.Err? <==> table.sealed
    ensures r.Err? ==> r.error == ImportsSealed(source)
    ensures r.Ok? ==> Lookup(r.value.1.entries, source, imported) == Some(r.value.0)
    ensures r.Ok? ==> !r.value.1.sealed
    ensures r.Ok? && Lookup(table.entries, source, imported).Some? ==> r.value == (Lookup(table.entries, source, imported).value, table, scope)
    ensures r.Ok? && Lookup(table.entries, source, imported).None? ==>
      && r.value.0 !in scope
      && r.value.2 == scope + {r.value.0}
      && r.value.1.entries == table.entries + [ImportEntry(source, imported, r.value.0)]
      && (suggestedName != "" && suggestedName !in scope ==> r.value.0 == suggestedName)
  {
    if table.sealed then Err(ImportsSealed(source))
    else
      match Lookup(table.entries, source, imported)
      case Some(alias) => Ok((alias, table, scope))
      case None =>
        var (alias, scope') := Scopes.Allocate(scope, suggestedName);
        var entries' := table.entries + [ImportEntry(source, imported, alias)];
        LookupAppend(table.entries, source, imported, alias);
        Ok((alias, table.(entries := entries'), scope'))
  }

  lemma {:induction false} LookupAppend(entries: seq<ImportEntry>, source: string, imported: string, alias: string)
    requires Lookup(entries, source, imported).None?
    ensures Lookup(entries + [ImportEntry(source, imported, alias)], source, imported) == Some(alias)
    decreases |entries|
  {
    if |entries| > 0 {
      assert (entries + [ImportEntry(source, imported, alias)])[1..] == entries[1..] + [ImportEntry(source, imported, alias)];
      LookupAppend(entries[1..], source, imported, alias);
    }
  }

  /** An alias once registered stays the one found as the table grows. */
  lemma {:induction false} LookupPrefix(entries: seq<ImportEntry>, entries': seq<ImportEntry>, source: string, imported: string)
    requires entries <= entries' && Lookup(entries, source, imported).Some?
    ensures Lookup(entries', source, imported) == Lookup(entries, source, imported)
    decreases |entries|
  {
    assert entries'[0] == entries[0];
    if !(entries[0].source == source && entries[0].imported == imported) {
      assert entries[1..] <= entries'[1..];
      LookupPrefix(entries[1..], entries'[1..], source, imported);
    }
  }

  /** `imports.seal()`: the entries are final from now on. */
  function Seal(table: ImportTable): (r: ImportTable)
    ensures r.sealed && r.entries == table.entries
  {
    table.(sealed := true)
  }
}

=== FILE: node_rendering.dfy ===
/** Node rendering (`renderNodeChildren`, `renderNode`, `renderRoot`): the
    page tree, bottom-up, into JSX. Rendering reads the bindings discovery
    recorded and never changes them; it only adds imports and data loaders. */
module NodeRendering {
  import opened Base
  import opened Records
  import opened Types
  import opened StudioDom
  import opened Imports
  import opened CompileContext
  import opened Printers
  import opened PropResolution
  import Text

  /** The `addImport` calls a component's `render` makes, in order. */
  function ApplyImports(ctx: Context, requests: seq<ImportRequest>)
    : (r: Result<(seq<string>, Context), CompileError>)
    ensures r.Err? <==> ctx.imports.sealed && |requests| > 0
    ensures r.Err? ==> r.error == ImportsSealed(requests[0].source)
    ensures r.Ok? ==> |r.value.0| == |requests|
    ensures r.Ok? ==> forall i :: 0 <= i < |requests| ==>
      ImportEntry(requests[i].source, requests[i].imported, r.value.0[i]) in r.value.1.imports.entries
    ensures r.Ok? ==> Continues(ctx, r.value.1) && r.value.1.dataLoaders == ctx.dataLoaders
    decreases |requests|
  {
    if |requests| == 0 then Ok(([], ctx))
    else
      var head := AddImport(ctx, requests[0].source, requests[0].imported, requests[0].suggestedName);
      if head.Err? then Err(head.error)
      else
        var (alias, c1) := head.value;
        var rest := ApplyImports(c1, requests[1..]);
        var (aliases, c2) := rest.value;
        ContinuesTrans(ctx, c1, c2);
        AliasesCons(requests, alias, aliases, c1.imports.entries, c2.imports.entries);
        Ok(([alias] + aliases, c2))
  }

  /** The first request's entry survives the later imports. */
  lemma AliasesCons(requests: seq<ImportRequest>, alias: string, aliases: seq<string>,
                    entries: seq<ImportEntry>, entries': seq<ImportEntry>)
    requires |requests| > 0 && |aliases| == |requests| - 1 && entries <= entries'
    requires ImportEntry(requests[0].source, requests[0].imported, alias) in entries
    requires forall i :: 0 <= i < |requests[1..]| ==>
      ImportEntry(requests[1..][i].source, requests[1..][i].imported, aliases[i]) in entries'
    ensures forall i :: 0 <= i < |requests| ==>
      ImportEntry(requests[i].source, requests[i].imported, ([alias] + aliases)[i]) in entries'
  {
    forall i | 0 <= i < |requests|
      ensures ImportEntry(requests[i].source, requests[i].imported, ([alias] + aliases)[i]) in entries'
    {
      if i > 0 {
        assert requests[i] == requests[1..][i - 1] && ([alias] + aliases)[i] == aliases[i - 1];
      } else {
        var k :| 0 <= k < |entries| && entries[k] == ImportEntry(requests[0].source, requests[0].imported, alias);
        assert entries'[k] == entries[k];
      }
    }
  }

  /** The node has no component definition, so it renders as `null`. */
  predicate Unrenderable(env: Env, id: NodeId) {
    id in env.dom.nodes && GetComponentDefinition(env, env.dom.nodes[id]).None?
  }

  /** The rendered text as a JSX element; in the editor, wrapped in a
      `RuntimeStudioNode` that carries the node id. */
  function Wrap(ctx: Context, id: NodeId, text: string): (r: PropExpression)
    ensures r.JsxElement?
    ensures !ctx.editor ==> r.value == text
    ensures ctx.editor && '"' !in id ==> ReadNodeId(ctx.runtimeAlias, r.value) == Some(id)
  {
    if ctx.editor && '"' !in id then
      StudioNodeMarkupCarriesId(ctx.runtimeAlias, id, text);
      JsxElement(StudioNodeMarkup(ctx.runtimeAlias, id, text))
    else if ctx.editor then JsxElement(StudioNodeMarkup(ctx.runtimeAlias, id, text))
    else JsxElement(text)
  }

  /** `renderNode(node)`. */
  function RenderNode(env: Env, ctx: Context, id: NodeId): (r: Result<(PropExpression, Context), CompileError>)
    requires WellFormed(env.dom) && id in env.dom.nodes
    ensures Unrenderable(env, id) ==> r == Ok((Expression("null"), ctx))
    ensures !Unrenderable(env, id) && r.Ok? ==> r.value.0.JsxElement?
    ensures !Unrenderable(env, id) && r.Ok? && ctx.editor && '"' !in id ==>
      ReadNodeId(ctx.runtimeAlias, r.value.0.value) == Some(id)
    ensures r.Ok? ==> Continues(ctx, r.value.1)
    ensures r.Err? && !ctx.imports.sealed ==> PropertyError(r.error)
    decreases env.dom.height[id], 3, 0
  {
    match GetComponentDefinition(env, env.dom.nodes[id])
    case None => Ok((Expression("null"), ctx))
    case Some(component) =>
      var (children, c1) :- RenderNodeChildren(env, ctx, id);
      var (expr, c2) :- Instantiate(env, c1, env.dom.nodes[id], component, children);
      ContinuesTrans(ctx, c1, c2);
      Ok((expr, c2))
  }

  /** The rest of `renderNode` once the children are rendered: resolve the
      properties, let the component render itself (its imports go through
      `addImport`), and wrap the result. */
  function Instantiate(env: Env, ctx: Context, node: Node, component: ComponentDef, children: ResolvedProps)
    : (r: Result<(PropExpression, Context), CompileError>)
    requires GetComponentDefinition(env, node) == Some(component)
    ensures r.Ok? ==> r.value.0.JsxElement?
    ensures r.Ok? && ctx.editor && '"' !in node.id ==> ReadNodeId(ctx.runtimeAlias, r.value.0.value) == Some(node.id)
    ensures r.Ok? ==> Continues(ctx, r.value.1)
    ensures r.Err? && !ctx.imports.sealed ==> PropertyError(r.error)
  {
    var (props, c1) :- ResolveProps(env, ctx, node, children);
    assert Continues(ctx, c1);
    var output := component.render(props);
    var (aliases, c2) :- ApplyImports(c1, output.imports);
    ContinuesTrans(ctx, c1, c2);
    Ok((Wrap(c2, node.id, output.text(aliases)), c2))
  }

  /** The child slots `renderNodeChildren` renders: a page only renders its
      `children` slot. */
  function RenderableSlots(dom: Document, id: NodeId): (r: Entries<seq<NodeId>>)
    requires WellFormed(dom) && id in dom.nodes
    ensures forall i, j :: 0 <= i < |r| && 0 <= j < |r[i].1| ==> Below(dom, id, r[i].1[j])
    ensures dom.nodes[id].Page? ==> Keys(r) <= {"children"}
    ensures !dom.nodes[id].Page? ==> r == GetChildNodes(dom, id)
  {
    var slots := GetChildNodes(dom, id);
    if dom.nodes[id].Page? then
      match Get(slots, "children")
      case Some(children) => [("children", children)]
      case None => []
    else slots
  }

  /** `renderNodeChildren(node)`. */
  function RenderNodeChildren(env: Env, ctx: Context, id: NodeId): (r: Result<(ResolvedProps, Context), CompileError>)
    requires WellFormed(env.dom) && id in env.dom.nodes
    // without editor markers, exactly the non-empty slots appear
    ensures r.Ok? && !ctx.editor ==> forall k :: k in Keys(r.value.0) <==> Filled(RenderableSlots(env.dom, id), k)
    ensures r.Ok? && !ctx.editor && Distinct(RenderableSlots(env.dom, id)) ==>
      var slots := RenderableSlots(env.dom, id);
      forall i :: 0 <= i < |slots| && |slots[i].1| > 0 ==> SlotShape(env, slots[i].1, Get(r.value.0, slots[i].0))
    ensures r.Ok? && ctx.editor ==> forall k :: Filled(RenderableSlots(env.dom, id), k) ==> k in Keys(r.value.0)
    ensures r.Ok? && ctx.editor && !Unrenderable(env, id) ==>
      forall k :: SlotArg(GetComponentDefinition(env, env.dom.nodes[id]).value.argTypes, k) ==>
        Get(r.value.0, k).Some? && Get(r.value.0, k).value.JsxElement?
    ensures r.Ok? ==> Continues(ctx, r.value.1)
    ensures r.Err? && !ctx.imports.sealed ==> PropertyError(r.error)
    decreases env.dom.height[id], 2, 0
  {
    var (result, c1) :- RenderSlots(env, ctx, id, RenderableSlots(env.dom, id), []);
    match GetComponentDefinition(env, env.dom.nodes[id])
    case Some(component) =>
      if ctx.editor then Ok((MarkSlots(ctx.runtimeAlias, env.services.stringify, component.argTypes, result), c1))
      else Ok((result, c1))
    case None => Ok((result, c1))
  }

  /** The slot `k` has at least one child. */
  predicate Filled(slots: Entries<seq<NodeId>>, k: string) {
    exists i :: 0 <= i < |slots| && slots[i].0 == k && |slots[i].1| > 0
  }

  lemma FilledCons(slots: Entries<seq<NodeId>>, k: string)
    requires |slots| > 0
    ensures Filled(slots, k) <==> (slots[0].0 == k && |slots[0].1| > 0) || Filled(slots[1..], k)
  {
    if Filled(slots[1..], k) {
      var i :| 0 <= i < |slots[1..]| && slots[1..][i].0 == k && |slots[1..][i].1| > 0;
      assert slots[i + 1] == slots[1..][i];
    }
    if Filled(slots, k) && slots[0].0 != k {
      var i :| 0 <= i < |slots| && slots[i].0 == k && |slots[i].1| > 0;
      assert slots[1..][i - 1] == slots[i];
    }
  }

  /** Records a slot's entry, if it has one. */
  function PutSlot(result: ResolvedProps, prop: string, entry: Option<PropExpression>): (r: ResolvedProps)
    ensures entry.None? ==> r == result
    ensures entry.Some? ==> Get(r, prop) == entry && Keys(r) == Keys(result) + {prop}
    ensures forall k :: k != prop ==> Get(r, k) == Get(result, k)
  {
    match entry
    case Some(e) => Put(result, prop, e)
    case None => result
  }

  /** The slot loop of `renderNodeChildren`: one child renders directly,
      several become one fragment, none add nothing. */
  function RenderSlots(env: Env, ctx: Context, parent: NodeId, slots: Entries<seq<NodeId>>, result: ResolvedProps)
    : (r: Result<(ResolvedProps, Context), CompileError>)
    requires WellFormed(env.dom) && parent in env.dom.height
    requires forall i, j :: 0 <= i < |slots| && 0 <= j < |slots[i].1| ==> Below(env.dom, parent, slots[i].1[j])
    ensures r.Ok? ==> forall k :: k in Keys(r.value.0) <==> k in Keys(result) || Filled(slots, k)
    ensures r.Ok? ==> forall k :: !Filled(slots, k) ==> Get(r.value.0, k) == Get(result, k)
    ensures r.Ok? && Distinct(slots) ==> forall i :: 0 <= i < |slots| && |slots[i].1| > 0 ==>
      SlotShape(env, slots[i].1, Get(r.value.0, slots[i].0))
    ensures r.Ok? ==> Continues(ctx, r.value.1)
    ensures r.Err? && !ctx.imports.sealed ==> PropertyError(r.error)
    decreases env.dom.height[parent], 1, |slots|
  {
    if |slots| == 0 then Ok((result, ctx))
    else
      var (prop, children) := slots[0];
      var head := RenderSlot(env, ctx, parent, children);
      if head.Err? then Err(head.error)
      else
        var (expr, c1) := head.value;
        var result' := PutSlot(result, prop, expr);
        var tail := RenderSlots(env, c1, parent, slots[1..], result');
        if tail.Err? then Err(tail.error)
        else
          var (r, c2) := tail.value;
          ContinuesTrans(ctx, c1, c2);
          forall k
            ensures Filled(slots, k) <==> (prop == k && |children| > 0) || Filled(slots[1..], k)
          {
            FilledCons(slots, k);
          }
          if Distinct(slots) then
            SlotShapesCons(env, slots, result', r);
            Ok((r, c2))
          else Ok((r, c2))
  }

  /** The shapes of the first slot and of the later slots combine, since with
      distinct names the later slots never touch the first one's entry. */
  lemma SlotShapesCons(env: Env, slots: Entries<seq<NodeId>>, result': ResolvedProps, r: ResolvedProps)
    requires Distinct(slots) && |slots| > 0
    requires |slots[0].1| > 0 ==> SlotShape(env, slots[0].1, Get(result', slots[0].0))
    requires forall k :: !Filled(slots[1..], k) ==> Get(r, k) == Get(result', k)
    requires forall i :: 0 <= i < |slots[1..]| && |slots[1..][i].1| > 0 ==>
      SlotShape(env, slots[1..][i].1, Get(r, slots[1..][i].0))
    ensures forall i :: 0 <= i < |slots| && |slots[i].1| > 0 ==> SlotShape(env, slots[i].1, Get(r, slots[i].0))
  {
    forall i | 0 <= i < |slots| && |slots[i].1| > 0
      ensures SlotShape(env, slots[i].1, Get(r, slots[i].0))
    {
      if i > 0 {
        assert slots[i] == slots[1..][i - 1];
      }
    }
  }

  /** What a slot's entry looks like: absent for no children, the child's own
      expression (`null` or an element) for one, a fragment for several. */
  predicate SlotShape(env: Env, children: seq<NodeId>, e: Option<PropExpression>) {
    && (e.Some? <==> |children| > 0)
    && (|children| > 1 ==> e.Some? && e.value.JsxFragment?)
    && (|children| == 1 && Unrenderable(env, children[0]) ==> e == Some(Expression("null")))
    && (|children| == 1 && !Unrenderable(env, children[0]) ==> e.Some? && e.value.JsxElement?)
  }

  /** One slot's entry, absent when the slot is empty. */
  function RenderSlot(env: Env, ctx: Context, parent: NodeId, children: seq<NodeId>)
    : (r: Result<(Option<PropExpression>, Context), CompileError>)
    requires WellFormed(env.dom) && parent in env.dom.height
    requires forall j :: 0 <= j < |children| ==> Below(env.dom, parent, children[j])
    ensures r.Ok? ==> SlotShape(env, children, r.value.0)
    // a single child's entry is that child's own rendering; several children
    // become the fragment of their renderings, in order
    ensures |children| == 1 && Below(env.dom, parent, children[0]) ==>
      r == (match RenderNode(env, ctx, children[0])
            case Ok((e, c)) => Ok((Some(e), c))
            case Err(err) => Err(err))
    ensures |children| > 1 && r.Ok? ==>
      && RenderChildList(env, ctx, parent, children).Ok?
      && r.value == (Some(Fragment(RenderChildList(env, ctx, parent, children).value.0)),
                     RenderChildList(env, ctx, parent, children).value.1)
    ensures r.Ok? ==> Continues(ctx, r.value.1)
    ensures r.Err? && !ctx.imports.sealed ==> PropertyError(r.error)
    decreases env.dom.height[parent], 1, 0
  {
    if |children| == 1 then
      assert Below(env.dom, parent, children[0]);
      var (expr, c1) :- RenderNode(env, ctx, children[0]);
      Ok((Some(expr), c1))
    else if |children| > 1 then
      var (exprs, c1) :- RenderChildList(env, ctx, parent, children);
      Ok((Some(Fragment(exprs)), c1))
    else Ok((None, ctx))
  }

  /** The JSX content of each expression, in order. */
  function JsxContents(exprs: seq<PropExpression>): (lines: seq<string>)
    ensures |lines| == |exprs|
    ensures forall i :: 0 <= i < |exprs| ==> lines[i] == RenderJsxContent(Some(exprs[i]))
  {
    seq(|exprs|, i requires 0 <= i < |exprs| => RenderJsxContent(Some(exprs[i])))
  }

  /** Several children as one fragment, one line of JSX content each: when no
      child's content spans lines, splitting the fragment at line breaks gives
      back each child's content, in order. */
  function Fragment(exprs: seq<PropExpression>): (r: PropExpression)
    ensures r.JsxFragment?
    ensures |exprs| >= 1 && (forall i :: 0 <= i < |exprs| ==> '\n' !in RenderJsxContent(Some(exprs[i]))) ==>
      Text.Split(r.value, '\n') == JsxContents(exprs)
  {
    var lines := JsxContents(exprs);
    if |exprs| >= 1 && (forall i :: 0 <= i < |lines| ==> '\n' !in lines[i]) then
      Text.SplitJoin(lines, '\n');
      JsxFragment(Text.Join(lines, "\n"))
    else JsxFragment(Text.Join(lines, "\n"))
  }

  /** The children of one slot, rendered in order. */
  function RenderChildList(env: Env, ctx: Context, parent: NodeId, ids: seq<NodeId>)
    : (r: Result<(seq<PropExpression>, Context), CompileError>)
    requires WellFormed(env.dom) && parent in env.dom.height
    requires forall j :: 0 <= j < |ids| ==> Below(env.dom, parent, ids[j])
    ensures r.Ok? ==> |r.value.0| == |ids|
    ensures r.Ok? ==> forall j :: 0 <= j < |ids| ==>
      (r.value.0[j] == Expression("null") <==> Unrenderable(env, ids[j]))
    // every renderable child is an element, and in the editor its id reads back
    ensures r.Ok? ==> forall j :: 0 <= j < |ids| && !Unrenderable(env, ids[j]) ==>
      && r.value.0[j].JsxElement?
      && (ctx.editor && '"' !in ids[j] ==> ReadNodeId(ctx.runtimeAlias, r.value.0[j].value) == Some(ids[j]))
    ensures r.Ok? ==> Continues(ctx, r.value.1)
    ensures r.Err? && !ctx.imports.sealed ==> PropertyError(r.error)
    decreases env.dom.height[parent], 0, |ids|
  {
    if |ids| == 0 then Ok(([], ctx))
    else
      assert Below(env.dom, parent, ids[0]);
      var head := RenderNode(env, ctx, ids[0]);
      if head.Err? then Err(head.error)
      else
        var (first, c1) := head.value;
        var tail := RenderChildList(env, c1, parent, ids[1..]);
        if tail.Err? then Err(tail.error)
        else
          var (rest, c2) := tail.value;
          ContinuesTrans(ctx, c1, c2);
          NullsLineUp(env, ids, first, rest);
          ElementsLineUp(env, ctx.editor, ctx.runtimeAlias, ids, first, rest);
          Ok(([first] + rest, c2))
  }

  /** The per-child `null` correspondence extends from the tail to the whole list. */
  lemma NullsLineUp(env: Env, ids: seq<NodeId>, first: PropExpression, rest: seq<PropExpression>)
    requires |ids| > 0 && |rest| == |ids| - 1
    requires first == Expression("null") <==> Unrenderable(env, ids[0])
    requires forall j :: 0 <= j < |rest| ==> (rest[j] == Expression("null") <==> Unrenderable(env, ids[1..][j]))
    ensures forall j :: 0 <= j < |ids| ==> (([first] + rest)[j] == Expression("null") <==> Unrenderable(env, ids[j]))
  {
    forall j | 0 <= j < |ids|
      ensures ([first] + rest)[j] == Expression("null") <==> Unrenderable(env, ids[j])
    {
      if j > 0 {
        assert ([first] + rest)[j] == rest[j - 1] && ids[j] == ids[1..][j - 1];
      }
    }
  }

  /** The per-child element and id read-back extend from the tail to the whole list. */
  lemma ElementsLineUp(env: Env, editor: bool, runtime: string, ids: seq<NodeId>, first: PropExpression, rest: seq<PropExpression>)
    requires |ids| > 0 && |rest| == |ids| - 1
    requires !Unrenderable(env, ids[0]) ==>
      first.JsxElement? && (editor && '"' !in ids[0] ==> ReadNodeId(runtime, first.value) == Some(ids[0]))
    requires forall j :: 0 <= j < |rest| && !Unrenderable(env, ids[1..][j]) ==>
      rest[j].JsxElement? && (editor && '"' !in ids[1..][j] ==> ReadNodeId(runtime, rest[j].value) == Some(ids[1..][j]))
    ensures forall j :: 0 <= j < |ids| && !Unrenderable(env, ids[j]) ==>
      && ([first] + rest)[j].JsxElement?
      && (editor && '"' !in ids[j] ==> ReadNodeId(runtime, ([first] + rest)[j].value) == Some(ids[j]))
  {
    forall j | 0 <= j < |ids| && !Unrenderable(env, ids[j])
      ensures ([first] + rest)[j].JsxElement?
      ensures editor && '"' !in ids[j] ==> ReadNodeId(runtime, ([first] + rest)[j].value) == Some(ids[j])
    {
      if j > 0 {
        assert ([first] + rest)[j] == rest[j - 1] && ids[j] == ids[1..][j - 1];
      }
    }
  }

  /** An element-typed argument with a slot or slots control. */
  predicate IsSlotArg(arg: (string, Option<ArgType>)) {
    && arg.1.Some? && arg.1.value.typeDef == ElementType
    && arg.1.value.control.Some? && (arg.1.value.control.value == SlotControl || arg.1.value.control.value == SlotsControl)
  }

  /** `k` is the name of a slot argument. */
  predicate SlotArg(argTypes: Entries<Option<ArgType>>, k: string) {
    exists i :: 0 <= i < |argTypes| && argTypes[i].0 == k && IsSlotArg(argTypes[i])
  }

  /** The editor marker of one slot argument around its current content. */
  function SlotMarker(runtime: string, stringify: Value -> string, arg: (string, Option<ArgType>), result: ResolvedProps)
    : PropExpression
    requires IsSlotArg(arg)
  {
    var multiple := arg.1.value.control.value == SlotsControl;
    JsxElement(SlotMarkup(runtime, multiple, stringify(Str(arg.0)), RenderJsxContent(Get(result, arg.0))))
  }

  /** The editor pass of `renderNodeChildren`: every slot argument's entry is
      replaced by a marker around its content; nothing else changes. */
  function MarkSlots(runtime: string, stringify: Value -> string, argTypes: Entries<Option<ArgType>>, result: ResolvedProps)
    : (r: ResolvedProps)
    ensures forall k :: !SlotArg(argTypes, k) ==> Get(r, k) == Get(result, k)
    ensures forall k :: SlotArg(argTypes, k) ==> Get(r, k).Some? && Get(r, k).value.JsxElement?
    ensures Keys(result) <= Keys(r)
    decreases |argTypes|
  {
    if |argTypes| == 0 then result
    else
      var step := if IsSlotArg(argTypes[0]) then Put(result, argTypes[0].0, SlotMarker(runtime, stringify, argTypes[0], result)) else result;
      var r := MarkSlots(runtime, stringify, argTypes[1..], step);
      assert forall i :: 1 <= i < |argTypes| ==> argTypes[i] == argTypes[1..][i - 1];
      r
  }

  /** With distinct argument names, each slot marker wraps exactly the
      content the slot had before the pass. */
  lemma {:induction false} MarkSlotsWraps(runtime: string, stringify: Value -> string, argTypes: Entries<Option<ArgType>>,
                                          result: ResolvedProps, i: nat)
    requires Distinct(argTypes) && i < |argTypes| && IsSlotArg(argTypes[i])
    ensures Get(MarkSlots(runtime, stringify, argTypes, result), argTypes[i].0)
      == Some(SlotMarker(runtime, stringify, argTypes[i], result))
    decreases |argTypes|
  {
    if i == 0 {
      FirstSlotWraps(runtime, stringify, argTypes, result);
    } else {
      var step := LaterSlotStep(runtime, stringify, argTypes, result, i);
      MarkSlotsWraps(runtime, stringify, argTypes[1..], step, i - 1);
    }
  }

  /** The first slot's marker is placed first and never touched again. */
  lemma FirstSlotWraps(runtime: string, stringify: Value -> string, argTypes: Entries<Option<ArgType>>, result: ResolvedProps)
    requires Distinct(argTypes) && |argTypes| > 0 && IsSlotArg(argTypes[0])
    ensures Get(MarkSlots(runtime, stringify, argTypes, result), argTypes[0].0)
      == Some(SlotMarker(runtime, stringify, argTypes[0], result))
  {
    var step := Put(result, argTypes[0].0, SlotMarker(runtime, stringify, argTypes[0], result));
    assert MarkSlots(runtime, stringify, argTypes, result) == MarkSlots(runtime, stringify, argTypes[1..], step);
    FirstSlotUntouched(argTypes);
  }

  /** One step of the pass as seen from a later slot: the pass continues on
      the tail, and the later slot's content is as it was. */
  lemma LaterSlotStep(runtime: string, stringify: Value -> string, argTypes: Entries<Option<ArgType>>,
                      result: ResolvedProps, i: nat)
    returns (step: ResolvedProps)
    requires Distinct(argTypes) && 0 < i < |argTypes| && IsSlotArg(argTypes[i])
    ensures MarkSlots(runtime, stringify, argTypes, result) == MarkSlots(runtime, stringify, argTypes[1..], step)
    ensures Distinct(argTypes[1..]) && argTypes[1..][i - 1] == argTypes[i]
    ensures SlotMarker(runtime, stringify, argTypes[i], step) == SlotMarker(runtime, stringify, argTypes[i], result)
  {
    step := if IsSlotArg(argTypes[0]) then Put(result, argTypes[0].0, SlotMarker(runtime, stringify, argTypes[0], result)) else result;
    assert argTypes[0].0 != argTypes[i].0;
    assert Get(step, argTypes[i].0) == Get(result, argTypes[i].0);
    forall a, b | 0 <= a < b < |argTypes[1..]|
      ensures argTypes[1..][a].0 != argTypes[1..][b].0
    {
      assert argTypes[1..][a] == argTypes[a + 1] && argTypes[1..][b] == argTypes[b + 1];
    }
  }

  /** With distinct names, the first argument's name is no later slot argument. */
  lemma FirstSlotUntouched(argTypes: Entries<Option<ArgType>>)
    requires Distinct(argTypes) && |argTypes| > 0
    ensures !SlotArg(argTypes[1..], argTypes[0].0)
  {
    forall j | 0 <= j < |argTypes[1..]|
      ensures argTypes[1..][j].0 != argTypes[0].0
    {
      assert argTypes[1..][j] == argTypes[j + 1];
    }
  }

  /** `renderRoot(page)`: the page's expression, printed as a JS expression. */
  function RenderRoot(env: Env, ctx: Context): (r: Result<(string, Context), CompileError>)
    requires WellFormed(env.dom) && ctx.page in env.dom.nodes
    ensures Unrenderable(env, ctx.page) ==> r == Ok(("null", ctx))
    // a page with a component is its rendered element, which in the editor
    // carries the page id
    ensures !Unrenderable(env, ctx.page) && r.Ok? ==>
      && RenderNode(env, ctx, ctx.page).Ok? && RenderNode(env, ctx, ctx.page).value.0.JsxElement?
      && r.value.0 == RenderNode(env, ctx, ctx.page).value.0.value
    ensures !Unrenderable(env, ctx.page) && r.Ok? && ctx.editor && '"' !in ctx.page ==>
      ReadNodeId(ctx.runtimeAlias, r.value.0) == Some(ctx.page)
    ensures r.Ok? ==> Continues(ctx, r.value.1)
    ensures r.Err? && !ctx.imports.sealed ==> PropertyError(r.error)
  {
    var (expr, c1) :- RenderNode(env, ctx, ctx.page);
    Ok((RenderJsExpression(Some(expr)), c1))
  }
}

=== FILE: page_assembly.dfy ===
/** Hook emission and the page module (`renderStateHooks`,
    `renderDerivedStateHooks`, `renderDataLoaderHooks`, `render`): the
    declarations the rendered page needs, in the order `render()` produces
    them, and the sealed import table. */
module PageAssembly {
  import opened Base
  import opened Records
  import opened Types
  import opened StudioDom
  import opened Imports
  import opened CompileContext
  import opened Printers
  import opened StateCollection
  import opened PropResolution
  import opened NodeRendering
  import Text

  /** One module-level hook declaration of the emitted `App` component. */
  datatype Declaration =
    | UseState(state: string, setState: string, initial: string)
    | UseMemo(variable: string, getter: string, params: string, deps: seq<string>)
    | UseDataQuery(variable: string, hook: string, query: string)

  /** The emitted page: its imports, the three groups of hook declarations
      and the JSX expression the component returns. */
  datatype PageModule = PageModule(
    imports: seq<ImportEntry>,
    stateHooks: seq<Declaration>,
    dataQueryHooks: seq<Declaration>,
    derivedStateHooks: seq<Declaration>,
    root: string)

  /** The line of source a declaration stands for. */
  function PrintDeclaration(reactAlias: string, d: Declaration): string {
    match d
    case UseState(state, setState, initial) =>
      "const [" + state + ", " + setState + "] " + ("= " + reactAlias + ".useState(" + initial + ");")
    case UseMemo(variable, getter, params, deps) =>
      "const " + variable + " " + ("= React.useMemo(() => " + getter + "(" + params + "), [" + Text.Join(deps, ", ") + "])")
    case UseDataQuery(variable, hook, query) =>
      "const " + variable + " " + ("= " + hook + "(" + query + ");")
  }

  /** How a reader of the emitted module finds the identifiers a declaration
      line introduces: the two names of `const [state, setState]`, or the
      word after `const `. */
  function ReadDeclared(line: string): seq<string> {
    if "const [" <= line then
      var inner := line[7..];
      var state := TakeUntil(inner, ',');
      if |state| + 2 <= |inner| then [state, TakeUntil(inner[|state| + 2..], ']')] else [state]
    else if "const " <= line then [TakeUntil(line[6..], ' ')]
    else []
  }

  /** Every printed declaration names exactly the identifiers it declares,
      for identifiers free of the punctuation around them. */
  lemma PrintedDeclarationDeclares(reactAlias: string, d: Declaration)
    requires forall i :: 0 <= i < |Declares(d)| ==>
      ' ' !in Declares(d)[i] && ',' !in Declares(d)[i] && ']' !in Declares(d)[i] && '[' !in Declares(d)[i]
    ensures ReadDeclared(PrintDeclaration(reactAlias, d)) == Declares(d)
  {
    match d
    case UseState(state, setState, initial) =>
      assert Declares(d)[0] == state && Declares(d)[1] == setState;
      ReadStatePair(state, setState, "= " + reactAlias + ".useState(" + initial + ");");
    case UseMemo(variable, getter, params, deps) =>
      assert Declares(d)[0] == variable;
      ReadSingle(variable, "= React.useMemo(() => " + getter + "(" + params + "), [" + Text.Join(deps, ", ") + "])");
    case UseDataQuery(variable, hook, query) =>
      assert Declares(d)[0] == variable;
      ReadSingle(variable, "= " + hook + "(" + query + ");");
  }

  lemma ReadStatePair(state: string, setState: string, tail: string)
    requires ',' !in state && ']' !in setState
    ensures ReadDeclared("const [" + state + ", " + setState + "] " + tail) == [state, setState]
  {
    var line := "const [" + state + ", " + setState + "] " + tail;
    var rest := " " + setState + "] " + tail;
    var inner := state + [','] + rest;
    assert line == "const [" + inner;
    assert line[7..] == inner;
    TakeUntilStops(state, ',', rest);
    assert inner[|state| + 2..] == setState + [']'] + (" " + tail);
    TakeUntilStops(setState, ']', " " + tail);
  }

  lemma ReadSingle(variable: string, tail: string)
    requires ' ' !in variable && '[' !in variable
    ensures ReadDeclared("const " + variable + " " + tail) == [variable]
  {
    var line := "const " + variable + " " + tail;
    assert line == "const " + (variable + [' '] + tail);
    assert line[6..] == variable + [' '] + tail;
    assert !("const [" <= line) by {
      if |variable| > 0 { assert line[6] == variable[0]; } else { assert line[6] == ' '; }
    }
    TakeUntilStops(variable, ' ', tail);
  }

  /** The identifiers a declaration introduces. */
  function Declares(d: Declaration): seq<string> {
    match d
    case UseState(state, setState, _) => [state, setState]
    case UseMemo(variable, _, _, _) => [variable]
    case UseDataQuery(variable, _, _) => [variable]
  }

  function DeclaredBy(ds: seq<Declaration>): seq<string>
    decreases |ds|
  {
    if |ds| == 0 then [] else Declares(ds[0]) + DeclaredBy(ds[1..])
  }

  lemma {:induction false} DeclaredBySnoc(ds: seq<Declaration>, d: Declaration)
    ensures DeclaredBy(ds + [d]) == DeclaredBy(ds) + Declares(d)
    decreases |ds|
  {
    if |ds| > 0 {
      assert (ds + [d])[1..] == ds[1..] + [d];
      DeclaredBySnoc(ds[1..], d);
    }
  }

  lemma {:induction false} MemoIdentsCons(m: (string, string), e: Entries<string>)
    ensures MemoIdents([m] + e) == [m.1] + MemoIdents(e)
    decreases |e|
  {
    if |e| > 0 {
      assert ([m] + e)[..|[m] + e| - 1] == [m] + e[..|e| - 1];
      MemoIdentsCons(m, e[..|e| - 1]);
    }
  }

  /** Every identifier the emitted module declares: hook pairs, memoized
      derived values, data loader variables, then import aliases. */
  function Declared(m: PageModule): seq<string> {
    DeclaredBy(m.stateHooks) + DeclaredBy(m.derivedStateHooks) + DeclaredBy(m.dataQueryHooks) + AliasIdents(m.imports)
  }

  /** No identifier occurs twice. */
  predicate NoDuplicates(names: seq<string>) {
    forall i, j :: 0 <= i < j < |names| ==> names[i] != names[j]
  }

  /** An element occurring at two positions counts twice in the multiset. */
  lemma TwiceInMultiset(s: seq<string>, i: nat, j: nat)
    requires i < j < |s| && s[i] == s[j]
    ensures multiset(s)[s[i]] >= 2
  {
    assert s == s[..j] + s[j..];
    assert s[i] in multiset(s[..j]);
    assert s[j..][0] == s[j];
    assert s[j] in multiset(s[j..]);
    assert multiset(s) == multiset(s[..j]) + multiset(s[j..]);
  }

  /** The compile invariant means the identifiers are pairwise distinct: a
      set holds each identifier once, so its multiset bounds each count by 1. */
  lemma InvNoDuplicates(ctx: Context)
    requires Inv(ctx)
    ensures NoDuplicates(Idents(ctx))
  {
    var names := Idents(ctx);
    DeclaredOnceMultiset(names, ctx.scope);
    forall i, j | 0 <= i < j < |names|
      ensures names[i] != names[j]
    {
      if names[i] == names[j] {
        TwiceInMultiset(names, i, j);
      }
    }
  }

  // ----- State hooks -----

  /** `JSON.stringify(defaultValue)` inside the template: an absent default
      prints as `undefined`. */
  function InitialText(stringify: Value -> string, defaultValue: Option<Value>): string {
    match defaultValue
    case Some(v) => stringify(v)
    case None => "undefined"
  }

  /** `renderStateHooks()`: one `useState` per hook, in allocation order,
      declaring exactly the allocated state and setter identifiers. */
  function RenderStateHooks(stringify: Value -> string, hooks: Entries<StateHook>): (ds: seq<Declaration>)
    ensures |ds| == |hooks|
    ensures forall i :: 0 <= i < |hooks| ==>
      ds[i] == UseState(hooks[i].1.state, hooks[i].1.setState, InitialText(stringify, hooks[i].1.defaultValue))
    ensures DeclaredBy(ds) == HookIdents(hooks)
    decreases |hooks|
  {
    if |hooks| == 0 then []
    else
      var last := hooks[|hooks| - 1].1;
      var d := UseState(last.state, last.setState, InitialText(stringify, last.defaultValue));
      var ds := RenderStateHooks(stringify, hooks[..|hooks| - 1]) + [d];
      DeclaredBySnoc(RenderStateHooks(stringify, hooks[..|hooks| - 1]), d);
      ds
  }

  // ----- Derived state hooks -----

  /** The module a derived state node's getter is imported from. */
  function DerivedStateModule(id: NodeId): string {
    "../derivedState/" + id + ".ts"
  }

  /** The dependency list: every resolved argument as a JS expression, as
      `Array.prototype.join` prints it, so an argument whose value is
      `undefined` becomes empty text. */
  function DepsOf(props: ResolvedProps): (deps: seq<string>)
    requires SpreadKey !in Keys(props)
    ensures |deps| == |props|
    // at every position the dependency is what the getter receives under
    // that argument's name, except that an `undefined` argument is passed
    // as `undefined` and listed as empty text
    ensures forall i :: 0 <= i < |props| && !props[i].1.UndefinedExpression? ==>
      Members(props)[i] == props[i].0 + ": " + deps[i]
    ensures forall i :: 0 <= i < |props| && props[i].1.UndefinedExpression? ==>
      deps[i] == "" && Members(props)[i] == props[i].0 + ": undefined"
  {
    var deps := seq(|props|, i requires 0 <= i < |props| =>
      if props[i].1.UndefinedExpression? then "" else RenderJsExpression(Some(props[i].1)));
    DepsAgree(props, deps);
    deps
  }

  lemma DepsAgree(props: ResolvedProps, deps: seq<string>)
    requires SpreadKey !in Keys(props)
    requires |deps| == |props|
    requires forall i :: 0 <= i < |props| ==>
      deps[i] == if props[i].1.UndefinedExpression? then "" else RenderJsExpression(Some(props[i].1))
    ensures forall i :: 0 <= i < |props| && !props[i].1.UndefinedExpression? ==>
      Members(props)[i] == props[i].0 + ": " + deps[i]
    ensures forall i :: 0 <= i < |props| && props[i].1.UndefinedExpression? ==>
      deps[i] == "" && Members(props)[i] == props[i].0 + ": undefined"
  {
    var members := Members(props);
    forall i | 0 <= i < |props|
      ensures !props[i].1.UndefinedExpression? ==> members[i] == props[i].0 + ": " + deps[i]
      ensures props[i].1.UndefinedExpression? ==> deps[i] == "" && members[i] == props[i].0 + ": undefined"
    {
      KeysIndex(props, props[i].0);
      DepAgrees(props[i].0, props[i].1, deps[i]);
    }
  }

  lemma DepAgrees(name: string, e: PropExpression, dep: string)
    requires name != SpreadKey
    requires dep == if e.UndefinedExpression? then "" else RenderJsExpression(Some(e))
    ensures !e.UndefinedExpression? ==> Member(name, e) == name + ": " + dep
    ensures e.UndefinedExpression? ==> dep == "" && Member(name, e) == name + ": undefined"
  {
  }

  /** One entry of `renderDerivedStateHooks`: resolve the node's arguments
      (without spread), import its getter, and memoize the call. */
  function DerivedHook(env: Env, ctx: Context, nodeId: NodeId, variable: string)
    : (r: Result<(Option<Declaration>, Context), CompileError>)
    ensures variable == "" ==> r == Ok((None, ctx))
    ensures variable != "" && (nodeId !in env.dom.nodes || !env.dom.nodes[nodeId].DerivedState?) ==>
      r == Err(NotDerivedState(nodeId))
    ensures r.Ok? && variable != "" ==>
      && r.value.0.Some? && r.value.0.value.UseMemo? && r.value.0.value.variable == variable
      && Lookup(r.value.1.imports.entries, DerivedStateModule(nodeId), "default") == Some(r.value.0.value.getter)
    // the getter's argument object and the dependency list come from the same
    // resolved arguments, without the spread
    ensures r.Ok? && variable != "" ==>
      && ResolveProps(env, ctx, env.dom.nodes[nodeId], []).Ok?
      && exists props: ResolvedProps ::
        && props == Remove(ResolveProps(env, ctx, env.dom.nodes[nodeId], []).value.0, SpreadKey)
        && SpreadKey !in Keys(props)
        && r.value.0.value.params == RenderPropsAsObject(props)
        && r.value.0.value.deps == DepsOf(props)
    ensures r.Ok? ==> Continues(ctx, r.value.1)
    ensures r.Err? && variable != "" && nodeId in env.dom.nodes && env.dom.nodes[nodeId].DerivedState? ==>
      PropertyError(r.error) || (ctx.imports.sealed && r.error == ImportsSealed(DerivedStateModule(nodeId)))
  {
    if variable == "" then Ok((None, ctx))
    else if nodeId !in env.dom.nodes || !env.dom.nodes[nodeId].DerivedState? then Err(NotDerivedState(nodeId))
    else
      var node := env.dom.nodes[nodeId];
      var (props, c1) :- ResolveProps(env, ctx, node, []);
      var resolved := Remove(props, SpreadKey);
      var (getter, c2) :- AddImport(c1, DerivedStateModule(nodeId), "default", node.name);
      ContinuesTrans(ctx, c1, c2);
      assert SpreadKey !in Keys(resolved);
      Ok((Some(UseMemo(variable, getter, RenderPropsAsObject(resolved), DepsOf(resolved))), c2))
  }

  /** A memo call whose argument object and dependency list come from one
      list of resolved arguments without the spread. */
  ghost predicate MemoCall(d: Declaration) {
    && d.UseMemo?
    && exists props: ResolvedProps ::
      && SpreadKey !in Keys(props)
      && d.params == RenderPropsAsObject(props)
      && d.deps == DepsOf(props)
  }

  /** The derived state hooks of `memos`, position by position: a memo call
      declaring the memo variable through the getter that `imports` registers
      for the node's module. */
  ghost predicate DerivedHooksFor(ds: seq<Declaration>, memos: Entries<string>, imports: seq<ImportEntry>) {
    && |ds| == |memos|
    && forall i :: 0 <= i < |memos| ==> HookFor(ds[i], memos[i], imports)
  }

  /** The hook of one memo table entry. */
  ghost predicate HookFor(d: Declaration, memo: (NodeId, string), imports: seq<ImportEntry>) {
    && MemoCall(d) && d.variable == memo.1
    && Lookup(imports, DerivedStateModule(memo.0), "default") == Some(d.getter)
  }

  lemma DerivedHooksForCons(d: Declaration, ds: seq<Declaration>, m: (NodeId, string), memos: Entries<string>, imports: seq<ImportEntry>)
    requires HookFor(d, m, imports)
    requires DerivedHooksFor(ds, memos, imports)
    ensures DerivedHooksFor([d] + ds, [m] + memos, imports)
  {
    forall i | 1 <= i < |memos| + 1
      ensures ([d] + ds)[i] == ds[i - 1] && ([m] + memos)[i] == memos[i - 1]
    {
    }
  }

  /** Later imports never change the getters the hooks name. */
  lemma DerivedHooksForGrow(ds: seq<Declaration>, memos: Entries<string>, imports: seq<ImportEntry>, imports': seq<ImportEntry>)
    requires imports <= imports'
    ensures DerivedHooksFor(ds, memos, imports) ==> DerivedHooksFor(ds, memos, imports')
  {
    if DerivedHooksFor(ds, memos, imports) {
      forall i | 0 <= i < |memos|
        ensures HookFor(ds[i], memos[i], imports')
      {
        assert HookFor(ds[i], memos[i], imports);
        LookupPrefix(imports, imports', DerivedStateModule(memos[i].0), "default");
      }
    }
  }

  /** `renderDerivedStateHooks()` over the memo table `memos`. */
  function RenderDerivedStateHooks(env: Env, ctx: Context, memos: Entries<string>)
    : (r: Result<(seq<Declaration>, Context), CompileError>)
    ensures r.Ok? ==> Continues(ctx, r.value.1)
    ensures r.Err? && MemosDerived(env.dom, memos) && !ctx.imports.sealed ==> PropertyError(r.error)
    decreases |memos|
  {
    if |memos| == 0 then Ok(([], ctx))
    else
      assert MemosDerived(env.dom, memos) ==>
        memos[0].0 in env.dom.nodes && env.dom.nodes[memos[0].0].DerivedState? && memos[0].1 != "";
      var first := DerivedHook(env, ctx, memos[0].0, memos[0].1);
      if first.Err? then Err(first.error)
      else
        var (d, c1) := first.value;
        MemosDerivedTail(env.dom, memos);
        var rest := RenderDerivedStateHooks(env, c1, memos[1..]);
        if rest.Err? then Err(rest.error)
        else
          var (ds, c2) := rest.value;
          ContinuesTrans(ctx, c1, c2);
          Ok((if d.Some? then [d.value] + ds else ds, c2))
  }

  lemma MemosDerivedTail(dom: Document, memos: Entries<string>)
    requires |memos| > 0
    ensures MemosDerived(dom, memos) ==> MemosDerived(dom, memos[1..])
  {
    assert forall i :: 0 <= i < |memos[1..]| ==> memos[1..][i] == memos[i + 1];
  }

  /** With every memo hook naming a derived state node, the derived state
      hooks declare exactly the memo identifiers, in order. */
  lemma {:induction false} DerivedStateHooksDeclare(env: Env, ctx: Context, memos: Entries<string>)
    requires MemosDerived(env.dom, memos)
    ensures RenderDerivedStateHooks(env, ctx, memos).Ok? ==>
      DeclaredBy(RenderDerivedStateHooks(env, ctx, memos).value.0) == MemoIdents(memos)
    decreases |memos|
  {
    if |memos| > 0 && RenderDerivedStateHooks(env, ctx, memos).Ok? {
      assert memos[0].0 in env.dom.nodes && env.dom.nodes[memos[0].0].DerivedState? && memos[0].1 != "";
      var first := DerivedHook(env, ctx, memos[0].0, memos[0].1);
      assert first.Ok?;
      var (d, c1) := first.value;
      assert d.Some? && Declares(d.value) == [memos[0].1];
      var rest := RenderDerivedStateHooks(env, c1, memos[1..]);
      assert rest.Ok?;
      var ds := rest.value.0;
      assert RenderDerivedStateHooks(env, ctx, memos).value.0 == [d.value] + ds;
      MemosDerivedTail(env.dom, memos);
      DerivedStateHooksDeclare(env, c1, memos[1..]);
      DeclaredByCons(d.value, ds);
      MemoIdentsCons(memos[0], memos[1..]);
      assert memos == [memos[0]] + memos[1..];
    }
  }

  /** With every memo hook naming a derived state node, the derived state
      hooks are one memo call per memo, in order, each through the getter
      imported from its node's module. */
  lemma {:induction false} DerivedHooksMatchMemos(env: Env, ctx: Context, memos: Entries<string>)
    ensures MemosDerived(env.dom, memos) && RenderDerivedStateHooks(env, ctx, memos).Ok? ==>
      DerivedHooksFor(RenderDerivedStateHooks(env, ctx, memos).value.0, memos,
                      RenderDerivedStateHooks(env, ctx, memos).value.1.imports.entries)
    decreases |memos|
  {
    if MemosDerived(env.dom, memos) && |memos| > 0 && RenderDerivedStateHooks(env, ctx, memos).Ok? {
      assert memos[0].0 in env.dom.nodes && env.dom.nodes[memos[0].0].DerivedState? && memos[0].1 != "";
      var first := DerivedHook(env, ctx, memos[0].0, memos[0].1);
      var (d, c1) := first.value;
      var rest := RenderDerivedStateHooks(env, c1, memos[1..]);
      var (ds, c2) := rest.value;
      assert RenderDerivedStateHooks(env, ctx, memos).value == ([d.value] + ds, c2);
      MemosDerivedTail(env.dom, memos);
      DerivedHooksMatchMemos(env, c1, memos[1..]);
      assert Continues(c1, c2);
      LookupPrefix(c1.imports.entries, c2.imports.entries, DerivedStateModule(memos[0].0), "default");
      assert HookFor(d.value, memos[0], c2.imports.entries);
      DerivedHooksForCons(d.value, ds, memos[0], memos[1..], c2.imports.entries);
      assert [memos[0]] + memos[1..] == memos;
    }
  }

  lemma DeclaredByCons(d: Declaration, ds: seq<Declaration>)
    ensures DeclaredBy([d] + ds) == Declares(d) + DeclaredBy(ds)
  {
    assert ([d] + ds)[1..] == ds;
  }

  // ----- Data loader hooks -----

  const StudioCoreModule: string := "@mui/studio-core"

  function LoaderDeclarations(hook: string, stringify: Value -> string, loaders: seq<DataLoader>): (ds: seq<Declaration>)
    ensures |ds| == |loaders|
    ensures forall i :: 0 <= i < |loaders| ==>
      ds[i] == UseDataQuery(loaders[i].variable, hook, stringify(Str(loaders[i].queryId)))
    ensures DeclaredBy(ds) == LoaderIdents(loaders)
    decreases |loaders|
  {
    if |loaders| == 0 then []
    else
      var last := loaders[|loaders| - 1];
      var d := UseDataQuery(last.variable, hook, stringify(Str(last.queryId)));
      DeclaredBySnoc(LoaderDeclarations(hook, stringify, loaders[..|loaders| - 1]), d);
      LoaderDeclarations(hook, stringify, loaders[..|loaders| - 1]) + [d]
  }

  /** The data query hooks of `loaders`: none without loaders, otherwise one
      `useDataQuery` call per loader, in order, through the hook `imports`
      registers. */
  predicate QueryHooksFor(qs: seq<Declaration>, loaders: seq<DataLoader>, imports: seq<ImportEntry>, stringify: Value -> string) {
    && (|loaders| == 0 ==> qs == [])
    && (|loaders| > 0 ==>
      && Lookup(imports, StudioCoreModule, "useDataQuery").Some?
      && qs == LoaderDeclarations(Lookup(imports, StudioCoreModule, "useDataQuery").value, stringify, loaders))
  }

  /** `renderDataLoaderHooks()`: nothing, and no import, without loaders;
      otherwise one `useDataQuery` call per loader through one import. */
  function RenderDataLoaderHooks(env: Env, ctx: Context): (r: Result<(seq<Declaration>, Context), CompileError>)
    ensures |ctx.dataLoaders| == 0 ==> r == Ok(([], ctx))
    ensures r.Err? <==> |ctx.dataLoaders| > 0 && ctx.imports.sealed
    ensures r.Ok? ==> DeclaredBy(r.value.0) == LoaderIdents(ctx.dataLoaders)
    ensures r.Ok? ==> forall i :: 0 <= i < |r.value.0| ==>
      r.value.0[i].UseDataQuery?
      && Lookup(r.value.1.imports.entries, StudioCoreModule, "useDataQuery") == Some(r.value.0[i].hook)
    ensures r.Ok? ==> Continues(ctx, r.value.1) && r.value.1.dataLoaders == ctx.dataLoaders
    ensures r.Ok? ==> QueryHooksFor(r.value.0, ctx.dataLoaders, r.value.1.imports.entries, env.services.stringify)
  {
    if |ctx.dataLoaders| == 0 then Ok(([], ctx))
    else
      var (hook, c1) :- AddImport(ctx, StudioCoreModule, "useDataQuery", "useDataQuery");
      Ok((LoaderDeclarations(hook, env.services.stringify, ctx.dataLoaders), c1))
  }

  // ----- The page module -----

  /** `render()`: discovery first, then the rest of the page. */
  function Render(env: Env, ctx: Context): (r: Result<(PageModule, Context), CompileError>)
    requires WellFormed(env.dom) && ctx.page in env.dom.nodes
    ensures r.Ok? ==> r.value.1.imports.sealed && r.value.0.imports == r.value.1.imports.entries
    // rendering runs on the bindings discovery found and never changes them
    ensures r.Ok? ==> CollectAllState(env, ctx).Ok? && SameBindings(CollectAllState(env, ctx).value, r.value.1)
    ensures r.Ok? ==> SameSetup(ctx, r.value.1) && ctx.imports.entries <= r.value.1.imports.entries
    // every `addImport` happens before the seal: after discovery, only a
    // property can make the compile fail
    ensures r.Err? && CollectAllState(env, ctx).Ok? && !ctx.imports.sealed && MemosDerived(env.dom, ctx.memoHooks) ==>
      PropertyError(r.error)
    // no identifier is declared twice in the emitted module
    ensures r.Ok? && Inv(ctx) && MemosDerived(env.dom, ctx.memoHooks) ==>
      Declared(r.value.0) == Idents(r.value.1) && NoDuplicates(Declared(r.value.0))
    // the module returns the page rendered over the discovered bindings
    ensures r.Ok? ==>
      && RenderRoot(env, CollectAllState(env, ctx).value).Ok?
      && r.value.0.root == RenderRoot(env, CollectAllState(env, ctx).value).value.0
      && r.value.0.stateHooks == RenderStateHooks(env.services.stringify, CollectAllState(env, ctx).value.stateHooks)
    ensures r.Ok? && !Unrenderable(env, ctx.page) && ctx.editor && '"' !in ctx.page ==>
      ReadNodeId(ctx.runtimeAlias, r.value.0.root) == Some(ctx.page)
    // with the hooks of the discovered memo table and of the loaders
    ensures r.Ok? && MemosDerived(env.dom, ctx.memoHooks) ==>
      DerivedHooksFor(r.value.0.derivedStateHooks, CollectAllState(env, ctx).value.memoHooks, r.value.0.imports)
    ensures r.Ok? ==>
      QueryHooksFor(r.value.0.dataQueryHooks, r.value.1.dataLoaders, r.value.0.imports, env.services.stringify)
  {
    var c1 :- CollectAllState(env, ctx);
    AllStateKeepsMemos(env, ctx);
    var (page, c2) :- Emit(env, c1);
    Ok((page, c2))
  }

  /** The rest of `render()` after discovery: the root, the three hook
      groups, and only then the seal on the imports. */
  function Emit(env: Env, ctx: Context): (r: Result<(PageModule, Context), CompileError>)
    requires WellFormed(env.dom) && ctx.page in env.dom.nodes
    ensures r.Ok? ==> r.value.1.imports.sealed && r.value.0.imports == r.value.1.imports.entries
    ensures r.Ok? ==> SameBindings(ctx, r.value.1) && SameSetup(ctx, r.value.1)
    ensures r.Ok? ==> ctx.imports.entries <= r.value.1.imports.entries
    ensures r.Err? && !ctx.imports.sealed && MemosDerived(env.dom, ctx.memoHooks) ==> PropertyError(r.error)
    ensures r.Ok? && Inv(ctx) && MemosDerived(env.dom, ctx.memoHooks) ==>
      Declared(r.value.0) == Idents(r.value.1) && NoDuplicates(Declared(r.value.0))
    // the module returns the page's rendering and declares the discovered state hooks
    ensures r.Ok? ==> RenderRoot(env, ctx).Ok? && r.value.0.root == RenderRoot(env, ctx).value.0
    ensures r.Ok? ==> r.value.0.stateHooks == RenderStateHooks(env.services.stringify, ctx.stateHooks)
    // and the hooks of the memo table and of the loaders registered while rendering
    ensures r.Ok? && MemosDerived(env.dom, ctx.memoHooks) ==>
      DerivedHooksFor(r.value.0.derivedStateHooks, ctx.memoHooks, r.value.0.imports)
    ensures r.Ok? ==>
      QueryHooksFor(r.value.0.dataQueryHooks, r.value.1.dataLoaders, r.value.0.imports, env.services.stringify)
  {
    var rooted := RenderRoot(env, ctx);
    if rooted.Err? then Err(rooted.error)
    else
      var (root, c1) := rooted.value;
      var hooks := RenderHookGroups(env, c1);
      if hooks.Err? then Err(hooks.error)
      else
        var (derived, queries, c3) := hooks.value;
        var stateHooks := RenderStateHooks(env.services.stringify, c1.stateHooks);
        ContinuesTrans(ctx, c1, c3);
        var c4 := c3.(imports := Seal(c3.imports));
        var page := PageModule(c4.imports.entries, stateHooks, queries, derived, root);
        assert c4.imports.entries == c3.imports.entries && c4.dataLoaders == c3.dataLoaders;
        if Inv(ctx) && MemosDerived(env.dom, ctx.memoHooks) then
          ModuleDeclares(page, c4);
          Ok((page, c4))
        else Ok((page, c4))
  }

  /** The derived state hooks, then the data loader hooks, both before the seal. */
  function RenderHookGroups(env: Env, ctx: Context)
    : (r: Result<(seq<Declaration>, seq<Declaration>, Context), CompileError>)
    ensures r.Ok? ==> Continues(ctx, r.value.2)
    ensures r.Err? && !ctx.imports.sealed && MemosDerived(env.dom, ctx.memoHooks) ==> PropertyError(r.error)
    ensures r.Ok? && MemosDerived(env.dom, ctx.memoHooks) ==>
      && DerivedHooksFor(r.value.0, ctx.memoHooks, r.value.2.imports.entries)
      && DeclaredBy(r.value.0) == MemoIdents(ctx.memoHooks)
    ensures r.Ok? ==>
      && QueryHooksFor(r.value.1, r.value.2.dataLoaders, r.value.2.imports.entries, env.services.stringify)
      && DeclaredBy(r.value.1) == LoaderIdents(r.value.2.dataLoaders)
  {
    var memos := RenderDerivedStateHooks(env, ctx, ctx.memoHooks);
    if memos.Err? then Err(memos.error)
    else
      var (derived, c2) := memos.value;
      var loaded := RenderDataLoaderHooks(env, c2);
      if loaded.Err? then Err(loaded.error)
      else
        var (queries, c3) := loaded.value;
        ContinuesTrans(ctx, c2, c3);
        DerivedHooksMatchMemos(env, ctx, ctx.memoHooks);
        DerivedHooksForGrow(derived, ctx.memoHooks, c2.imports.entries, c3.imports.entries);
        if MemosDerived(env.dom, ctx.memoHooks) then
          DerivedStateHooksDeclare(env, ctx, ctx.memoHooks);
          Ok((derived, queries, c3))
        else Ok((derived, queries, c3))
  }

  /** A module whose hook groups declare the context's hook identifiers, and
      whose imports are the context's, declares exactly its identifiers. */
  lemma ModuleDeclares(page: PageModule, c: Context)
    requires Inv(c) && page.imports == c.imports.entries
    requires DeclaredBy(page.stateHooks) == HookIdents(c.stateHooks)
    requires DeclaredBy(page.derivedStateHooks) == MemoIdents(c.memoHooks)
    requires DeclaredBy(page.dataQueryHooks) == LoaderIdents(c.dataLoaders)
    ensures Declared(page) == Idents(c) && NoDuplicates(Declared(page))
  {
    InvNoDuplicates(c);
  }

  /** `renderPageCode(dom, pageNodeId, { editor })` without the optional
      pretty-printing. */
  function RenderPageCode(env: Env, pageId: NodeId, editor: bool): (r: Result<PageModule, CompileError>)
    requires WellFormed(env.dom)
    ensures pageId !in env.dom.nodes || !env.dom.nodes[pageId].Page? ==> r == Err(NotPage(pageId))
    ensures r.Err? ==>
      r.error == NotPage(pageId) || CollectAllState(env, NewContext(pageId, editor)).Err? || PropertyError(r.error)
    ensures r.Ok? ==> NoDuplicates(Declared(r.value))
    ensures r.Ok? ==> |r.value.imports| >= 1 && r.value.imports[0] == ImportEntry(ReactModule, "default", "React")
    ensures r.Ok? && editor ==> |r.value.imports| >= 2 && r.value.imports[1] == ImportEntry(RuntimeModule, "*", "__studioRuntime")
    // in the editor, the returned root carries the page id
    ensures r.Ok? && editor && !Unrenderable(env, pageId) && '"' !in pageId ==>
      ReadNodeId("__studioRuntime", r.value.root) == Some(pageId)
    // the hook groups are those of the discovered memo table and of the
    // loaders the page registered
    ensures r.Ok? ==>
      && pageId in env.dom.nodes && Render(env, NewContext(pageId, editor)).Ok?
      && CollectAllState(env, NewContext(pageId, editor)).Ok?
      && DerivedHooksFor(r.value.derivedStateHooks, CollectAllState(env, NewContext(pageId, editor)).value.memoHooks, r.value.imports)
      && QueryHooksFor(r.value.dataQueryHooks, Render(env, NewContext(pageId, editor)).value.1.dataLoaders,
                       r.value.imports, env.services.stringify)
  {
    if pageId !in env.dom.nodes || !env.dom.nodes[pageId].Page? then Err(NotPage(pageId))
    else
      var ctx := NewContext(pageId, editor);
      var rendered := Render(env, ctx);
      RenderFresh(env, ctx, editor);
      RenderFreshRoot(env, ctx, editor);
      RenderFreshHooks(env, ctx);
      if rendered.Err? then Err(rendered.error)
      else Ok(rendered.value.0)
  }

  /** What `Render` promises when it starts from the constructor's context. */
  lemma RenderFresh(env: Env, ctx: Context, editor: bool)
    requires WellFormed(env.dom) && ctx.page in env.dom.nodes
    requires Inv(ctx) && !ctx.imports.sealed && ctx.memoHooks == []
    requires ctx.editor == editor && (editor ==> ctx.runtimeAlias == "__studioRuntime")
    requires ctx.imports.entries == [ImportEntry(ReactModule, "default", "React")]
      + (if editor then [ImportEntry(RuntimeModule, "*", "__studioRuntime")] else [])
    ensures Render(env, ctx).Err? ==> CollectAllState(env, ctx).Err? || PropertyError(Render(env, ctx).error)
    ensures Render(env, ctx).Ok? ==>
      var page := Render(env, ctx).value.0;
      && NoDuplicates(Declared(page))
      && |page.imports| >= 1 && page.imports[0] == ImportEntry(ReactModule, "default", "React")
      && (editor ==> |page.imports| >= 2 && page.imports[1] == ImportEntry(RuntimeModule, "*", "__studioRuntime"))
  {
    assert MemosDerived(env.dom, ctx.memoHooks);
    var r := Render(env, ctx);
    if r.Ok? {
      var imports := r.value.0.imports;
      assert ctx.imports.entries <= imports;
      assert imports[0] == ctx.imports.entries[0];
      if editor {
        assert imports[1] == ctx.imports.entries[1];
      }
    }
  }

  /** The constructor's memo table is empty, so every memo after discovery
      names a derived state node. */
  lemma RenderFreshHooks(env: Env, ctx: Context)
    requires WellFormed(env.dom) && ctx.page in env.dom.nodes && ctx.memoHooks == []
    ensures Render(env, ctx).Ok? ==>
      && CollectAllState(env, ctx).Ok?
      && DerivedHooksFor(Render(env, ctx).value.0.derivedStateHooks, CollectAllState(env, ctx).value.memoHooks,
                         Render(env, ctx).value.0.imports)
  {
    assert MemosDerived(env.dom, ctx.memoHooks);
  }

  /** In editor mode the constructor's runtime alias is the one the root's
      node id is read back through. */
  lemma RenderFreshRoot(env: Env, ctx: Context, editor: bool)
    requires WellFormed(env.dom) && ctx.page in env.dom.nodes
    requires ctx.editor == editor && (editor ==> ctx.runtimeAlias == "__studioRuntime")
    ensures Render(env, ctx).Ok? && editor && !Unrenderable(env, ctx.page) && '"' !in ctx.page ==>
      ReadNodeId("__studioRuntime", Render(env, ctx).value.0.root) == Some(ctx.page)
  {
  }
}

=== FILE: page_editor.dfy ===
/** The state machine behind the page editor: an immutable editor record and a
    total reducer over a closed set of actions. The record's constant
    `type: 'page'` tag is the constructor `PageEditorState` itself. */
module PageEditor {
  import opened Base
  import opened Types
  import StudioDom

  datatype ComponentPanelTab = CatalogTab | ComponentTab | ThemeTab

  /** Where a dragged node would land. `index` absent stands for a location
      object without an `index` key. */
  datatype SlotLocation = SlotLocation(parentId: NodeId, parentProp: string, index: Option<nat>)

  /** `V` is the per-node view information reported by the rendered page; the
      reducer only stores and replaces it. */
  datatype PageEditorState<V> = PageEditorState(
    nodeId: NodeId,
    selection: Option<NodeId>,
    componentPanelTab: ComponentPanelTab,
    newNode: Option<StudioDom.Node>,
    highlightLayout: bool,
    highlightedSlot: Option<SlotLocation>,
    viewState: map<NodeId, V>)

  datatype PageEditorAction<V> =
    | Replace(state: PageEditorState<V>)
    | SelectNode(nodeId: Option<NodeId>)
    | DeselectNode
    | SetComponentPanelTab(tab: ComponentPanelTab)
    | NewNodeDragStart(newNode: StudioDom.Node)
    | NodeDragOver(slot: Option<SlotLocation>)
    | NodeDragEnd
    | ViewStateUpdate(viewState: map<NodeId, V>)

  /** The fields of the editor record, to state which ones an action may touch. */
  datatype Field = NodeIdField | Selection | PanelTab | NewNode | HighlightLayout | HighlightedSlot | ViewStateField

  /** The fields named in each action's record update: an independent reading
      of which parts of the state an action is about. */
  function Touches<V>(action: PageEditorAction<V>): set<Field> {
    match action
    case Replace(_) => {NodeIdField, Selection, PanelTab, NewNode, HighlightLayout, HighlightedSlot, ViewStateField}
    case SelectNode(_) => {Selection, PanelTab}
    case DeselectNode => {Selection, PanelTab}
    case SetComponentPanelTab(_) => {PanelTab}
    case NewNodeDragStart(_) => {NewNode}
    case NodeDragOver(_) => {HighlightLayout, HighlightedSlot}
    case NodeDragEnd => {NewNode, HighlightLayout, HighlightedSlot}
    case ViewStateUpdate(_) => {ViewStateField}
  }

  /** `s` and `t` hold the same value in field `f`. */
  ghost predicate Agrees<V>(s: PageEditorState<V>, t: PageEditorState<V>, f: Field) {
    match f
    case NodeIdField => s.nodeId == t.nodeId
    case Selection => s.selection == t.selection
    case PanelTab => s.componentPanelTab == t.componentPanelTab
    case NewNode => s.newNode == t.newNode
    case HighlightLayout => s.highlightLayout == t.highlightLayout
    case HighlightedSlot => s.highlightedSlot == t.highlightedSlot
    case ViewStateField => s.viewState == t.viewState
  }

  /** The fresh state of an editor opened on page `nodeId`. */
  function CreatePageEditorState<V>(nodeId: NodeId): (r: PageEditorState<V>)
    ensures r.nodeId == nodeId
    ensures r.selection.None? && r.componentPanelTab == CatalogTab
    ensures r.newNode.None? && !r.highlightLayout && r.highlightedSlot.None?
    ensures |r.viewState| == 0
    ensures Consistent(r)
  {
    PageEditorState(nodeId, None, CatalogTab, None, false, None, map[])
  }

  /** `updateOrCreate`: with no previous location the new one is taken as is,
      otherwise the new location's keys are laid over the previous one's.
      Its laws: creating gives the new location, updating a location with
      itself changes nothing, and overlaying twice is overlaying once. */
  function UpdateOrCreate(previous: Option<SlotLocation>, slot: SlotLocation): (r: SlotLocation)
    ensures previous.None? ==> r == slot
    ensures previous == Some(slot) ==> r == slot
    ensures previous.Some? && previous.value.index.None? ==> r == slot
  {
    match previous
    case None => slot
    case Some(p) => SlotLocation(slot.parentId, slot.parentProp, if slot.index.Some? then slot.index else p.index)
  }

  /** Overlaying the same location twice is overlaying it once, and a later
      location that carries every key overrides an earlier update entirely. */
  lemma UpdateOrCreateOverrides(p: Option<SlotLocation>, a: SlotLocation, b: SlotLocation)
    ensures UpdateOrCreate(Some(UpdateOrCreate(p, a)), a) == UpdateOrCreate(p, a)
    ensures b.index.Some? ==> UpdateOrCreate(Some(UpdateOrCreate(p, a)), b) == UpdateOrCreate(p, b) == b
  {
  }

  /** A slot is only highlighted while the layout is highlighted. */
  predicate Consistent<V>(s: PageEditorState<V>) {
    s.highlightedSlot.Some? ==> s.highlightLayout
  }

  function PageEditorReducer<V>(state: PageEditorState<V>, action: PageEditorAction<V>): (r: PageEditorState<V>)
    // frame: a field the action does not name keeps its value
    ensures forall f :: f !in Touches(action) ==> Agrees(state, r, f)
    ensures !action.Replace? ==> r.nodeId == state.nodeId
    ensures action.Replace? ==> r == action.state
    ensures action.SelectNode? ==> r.selection == action.nodeId && r.componentPanelTab == ComponentTab
    ensures action.DeselectNode? ==> r.selection.None?
    ensures action.DeselectNode? ==>
      (r.componentPanelTab == CatalogTab <==> state.componentPanelTab in {CatalogTab, ComponentTab})
    ensures action.DeselectNode? && state.componentPanelTab != ComponentTab ==>
      r.componentPanelTab == state.componentPanelTab
    ensures action.SetComponentPanelTab? ==> r.componentPanelTab == action.tab
    ensures action.NewNodeDragStart? && state.newNode.Some? ==> r == state
    ensures action.NewNodeDragStart? && state.newNode.None? ==> r.newNode == Some(action.newNode)
    ensures action.NewNodeDragStart? ==> r.newNode.Some?
    ensures action.NodeDragEnd? ==> r.newNode.None? && !r.highlightLayout && r.highlightedSlot.None?
    ensures action.NodeDragOver? ==> r.highlightLayout
    ensures action.NodeDragOver? ==> (r.highlightedSlot.None? <==> action.slot.None?)
    ensures action.NodeDragOver? && action.slot.Some? ==>
      r.highlightedSlot == Some(UpdateOrCreate(state.highlightedSlot, action.slot.value))
    ensures action.ViewStateUpdate? ==> r.viewState == action.viewState
    ensures !action.Replace? && Consistent(state) ==> Consistent(r)
  {
    match action
    case Replace(s) => s
    case SelectNode(id) => state.(selection := id, componentPanelTab := ComponentTab)
    case DeselectNode =>
      state.(selection := None,
             componentPanelTab := if state.componentPanelTab == ComponentTab then CatalogTab else state.componentPanelTab)
    case SetComponentPanelTab(tab) => state.(componentPanelTab := tab)
    case NewNodeDragStart(n) =>
      if state.newNode.Some? then state else state.(newNode := Some(n))
    case NodeDragEnd => state.(newNode := None, highlightLayout := false, highlightedSlot := None)
    case NodeDragOver(slot) =>
      state.(highlightLayout := true,
             highlightedSlot := if slot.Some? then Some(UpdateOrCreate(state.highlightedSlot, slot.value)) else None)
    case ViewStateUpdate(v) => state.(viewState := v)
  }

  /** Ending a drag is idempotent. */
  lemma DragEndIdempotent<V>(state: PageEditorState<V>)
    ensures PageEditorReducer(PageEditorReducer(state, NodeDragEnd), NodeDragEnd)
         == PageEditorReducer(state, NodeDragEnd)
  {
  }

  /** While a drag is under way a second drag start is ignored: the first node wins. */
  lemma FirstDragStartWins<V>(state: PageEditorState<V>, a: StudioDom.Node, b: StudioDom.Node)
    ensures PageEditorReducer(PageEditorReducer(state, NewNodeDragStart(a)), NewNodeDragStart(b))
         == PageEditorReducer(state, NewNodeDragStart(a))
  {
  }

  /** The state reached by dispatching `actions` in order. */
  function Replay<V>(state: PageEditorState<V>, actions: seq<PageEditorAction<V>>): (r: PageEditorState<V>)
    ensures |actions| > 0 && actions[|actions| - 1].Replace? ==> r == actions[|actions| - 1].state
    decreases |actions|
  {
    if |actions| == 0 then state
    else PageEditorReducer(Replay(state, actions[..|actions| - 1]), actions[|actions| - 1])
  }

  /** Only a replacement can move the editor to another page. */
  lemma {:induction false} ReplayKeepsPage<V>(state: PageEditorState<V>, actions: seq<PageEditorAction<V>>)
    requires forall i :: 0 <= i < |actions| ==> !actions[i].Replace?
    ensures Replay(state, actions).nodeId == state.nodeId
    decreases |actions|
  {
    if |actions| > 0 {
      ReplayKeepsPage(state, actions[..|actions| - 1]);
    }
  }

  /** Starting from a consistent state, and replacing only with consistent
      states, a highlighted slot always comes with a highlighted layout. */
  lemma {:induction false} ReplayKeepsConsistent<V>(state: PageEditorState<V>, actions: seq<PageEditorAction<V>>)
    requires Consistent(state)
    requires forall i :: 0 <= i < |actions| && actions[i].Replace? ==> Consistent(actions[i].state)
    ensures Consistent(Replay(state, actions))
    decreases |actions|
  {
    if |actions| > 0 {
      ReplayKeepsConsistent(state, actions[..|actions| - 1]);
    }
  }
}

=== FILE: printers.dfy ===
/** The expression printers of the page compiler: how a rendered property
    becomes JavaScript expression text, JSX child text, JSX attributes or an
    object literal, plus the editor-only markup that wraps rendered nodes and
    slots. Whitespace inside the emitted templates is not modelled. */
module Printers {
  import opened Base
  import opened Records
  import opened Types
  import Text

  /** `renderJsExpression(expr)`: text usable as a JavaScript expression. An
      expression whose value is `undefined` is returned as that value, which
      the templates that use the result print as `undefined`. */
  function RenderJsExpression(expr: Option<PropExpression>): (r: string)
    ensures expr.None? ==> r == "undefined"
    ensures expr.Some? && expr.value.JsxFragment? ==> r == "<>" + expr.value.value + "</>"
    ensures expr.Some? && (expr.value.Expression? || expr.value.JsxElement?) ==> r == expr.value.value
    ensures expr.Some? && expr.value.UndefinedExpression? ==> r == "undefined"
  {
    match expr
    case None => "undefined"
    case Some(JsxFragment(v)) => "<>" + v + "</>"
    case Some(e) => Verbatim(e)
  }

  /** `renderJsxContent(expr)`: text usable as the children of a JSX element. */
  function RenderJsxContent(expr: Option<PropExpression>): (r: string)
    ensures expr.None? ==> r == ""
    ensures expr.Some? && (expr.value.JsxElement? || expr.value.JsxFragment?) ==> r == expr.value.value
    ensures expr.Some? && expr.value.Expression? ==> r == "{" + expr.value.value + "}"
    ensures expr.Some? && expr.value.UndefinedExpression? ==> r == "{undefined}"
  {
    match expr
    case None => ""
    case Some(JsxElement(v)) => v
    case Some(JsxFragment(v)) => v
    case Some(_) => "{" + RenderJsExpression(expr) + "}"
  }

  /** The two printers agree up to delimiters: an expression (even an
      `undefined` one) is brace-wrapped as JSX content, a fragment is wrapped
      in `<>...</>` as an expression, and an element prints the same either
      way. */
  lemma JsxContentVersusExpression(e: PropExpression)
    ensures e.Expression? || e.UndefinedExpression? ==>
      RenderJsxContent(Some(e)) == "{" + RenderJsExpression(Some(e)) + "}"
    ensures e.JsxFragment? ==> RenderJsExpression(Some(e)) == "<>" + RenderJsxContent(Some(e)) + "</>"
    ensures e.JsxElement? ==> RenderJsExpression(Some(e)) == RenderJsxContent(Some(e))
  {
  }

  /** One JSX attribute per resolved property; spread attributes verbatim. */
  function Attribute(name: string, expr: PropExpression): string {
    if name == SpreadKey then Verbatim(expr) else name + "={" + RenderJsExpression(Some(expr)) + "}"
  }

  /** One object-literal member per resolved property; spread members verbatim. */
  function Member(name: string, expr: PropExpression): string {
    if name == SpreadKey then Verbatim(expr) else name + ": " + RenderJsExpression(Some(expr))
  }

  function Attributes(props: ResolvedProps): (parts: seq<string>)
    ensures |parts| == |props|
    ensures forall i :: 0 <= i < |props| ==> parts[i] == Attribute(props[i].0, props[i].1)
  {
    seq(|props|, i requires 0 <= i < |props| => Attribute(props[i].0, props[i].1))
  }

  function Members(props: ResolvedProps): (parts: seq<string>)
    ensures |parts| == |props|
    ensures forall i :: 0 <= i < |props| ==> parts[i] == Member(props[i].0, props[i].1)
  {
    seq(|props|, i requires 0 <= i < |props| => Member(props[i].0, props[i].1))
  }

  /** `renderProps(props)`: the attributes of a JSX element, space separated,
      in property order. */
  function RenderProps(props: ResolvedProps): (r: string)
    ensures |props| == 0 ==> r == ""
    ensures |props| == 1 ==> r == Attribute(props[0].0, props[0].1)
  {
    Text.Join(Attributes(props), " ")
  }

  /** `renderPropsAsObject(props)`: an object literal with the same properties
      in the same order. */
  function RenderPropsAsObject(props: ResolvedProps): (r: string)
    ensures |r| >= 2 && r[0] == '{' && r[|r| - 1] == '}'
    ensures |props| == 0 ==> r == "{}"
    ensures |props| == 1 ==> r == "{" + Member(props[0].0, props[0].1) + "}"
  {
    "{" + Text.Join(Members(props), ", ") + "}"
  }

  /** Attributes are printed property by property in order: printing two
      lists of properties one after the other is printing each, separated by
      a space. */
  lemma RenderPropsAppend(a: ResolvedProps, b: ResolvedProps)
    requires |a| > 0 && |b| > 0
    ensures RenderProps(a + b) == RenderProps(a) + " " + RenderProps(b)
  {
    assert Attributes(a + b) == Attributes(a) + Attributes(b);
    Text.JoinAppend(Attributes(a), Attributes(b), " ");
  }

  /** Object members are printed property by property in order too: the
      literal for two lists is the first literal without its closing brace, a
      comma, and the second without its opening one. */
  lemma RenderPropsAsObjectAppend(a: ResolvedProps, b: ResolvedProps)
    requires |a| > 0 && |b| > 0
    ensures var o := RenderPropsAsObject(a);
      RenderPropsAsObject(a + b) == o[..|o| - 1] + ", " + RenderPropsAsObject(b)[1..]
  {
    var ma := Text.Join(Members(a), ", ");
    var mb := Text.Join(Members(b), ", ");
    MembersAppend(a, b);
    Text.JoinAppend(Members(a), Members(b), ", ");
    BracedConcat(ma, mb);
  }

  lemma MembersAppend(a: ResolvedProps, b: ResolvedProps)
    ensures Members(a + b) == Members(a) + Members(b)
  {
    forall i | 0 <= i < |a + b|
      ensures Members(a + b)[i] == (Members(a) + Members(b))[i]
    {
      if i >= |a| {
        assert (a + b)[i] == b[i - |a|];
      }
    }
  }

  lemma BracedConcat(x: string, y: string)
    ensures var o := "{" + x + "}";
      o[..|o| - 1] + ", " + ("{" + y + "}")[1..] == "{" + (x + ", " + y) + "}"
  {
    var o := "{" + x + "}";
    assert o[..|o| - 1] == "{" + x;
    assert ("{" + y + "}")[1..] == y + "}";
  }

  /** The attribute list and the object literal print every property in the
      same position with the same expression text, and the spread entry
      identically. */
  lemma AttributesMatchMembers(props: ResolvedProps, i: int)
    requires 0 <= i < |props|
    ensures props[i].0 == SpreadKey ==> Attributes(props)[i] == Members(props)[i] == Verbatim(props[i].1)
    ensures props[i].0 != SpreadKey ==>
      && Attributes(props)[i] == props[i].0 + "={" + RenderJsExpression(Some(props[i].1)) + "}"
      && Members(props)[i] == props[i].0 + ": " + RenderJsExpression(Some(props[i].1))
  {
  }

  /** `renderComponent(name, props)`: a self-closing element without
      children, otherwise the children as JSX content. */
  function RenderComponent(name: string, props: ResolvedProps): (r: string)
    ensures Get(props, "children").None? ==> r == "<" + name + " " + RenderProps(Remove(props, "children")) + "/>"
    ensures Get(props, "children").Some? ==>
      r == "<" + name + " " + RenderProps(Remove(props, "children")) + ">"
           + RenderJsxContent(Get(props, "children")) + "</" + name + ">"
  {
    var rest := Remove(props, "children");
    match Get(props, "children")
    case Some(children) =>
      "<" + name + " " + RenderProps(rest) + ">" + RenderJsxContent(Some(children)) + "</" + name + ">"
    case None => "<" + name + " " + RenderProps(rest) + "/>"
  }

  /** The closure bound to a change-notification property:
      `(params) => setState(valueGetter)`. */
  function ChangeClosure(handler: ChangeHandler, setState: string): string {
    "(" + Text.Join(handler.params, ", ") + ") => " + setState + "(" + handler.valueGetter + ")"
  }

  /** The closure's body ends by calling the setter on the getter's value, and
      its parameter list reads back whenever no parameter contains a closing
      parenthesis. */
  lemma ChangeClosureCallsSetter(handler: ChangeHandler, setState: string)
    ensures var r := ChangeClosure(handler, setState);
      var call := setState + "(" + handler.valueGetter + ")";
      |call| <= |r| && r[|r| - |call|..] == call
    ensures (forall i :: 0 <= i < |handler.params| ==> ')' !in handler.params[i]) ==>
      var r := ChangeClosure(handler, setState);
      |r| > 0 && r[0] == '(' && TakeUntil(r[1..], ')') == Text.Join(handler.params, ", ")
  {
    var params := Text.Join(handler.params, ", ");
    var call := setState + "(" + handler.valueGetter + ")";
    var r := ChangeClosure(handler, setState);
    assert r == "(" + params + ") => " + call;
    assert r[|r| - |call|..] == call;
    if forall i :: 0 <= i < |handler.params| ==> ')' !in handler.params[i] {
      Text.JoinAvoids(handler.params, ", ", ')');
      assert r[1..] == params + [')'] + (" => " + call);
      TakeUntilStops(params, ')', " => " + call);
    }
  }

  /** The opening of the editor instrumentation around a rendered node, up to
      its node id. */
  function StudioNodeOpening(runtime: string): string {
    "<" + runtime + ".RuntimeStudioNode nodeId=\""
  }

  /** Editor mode: a rendered node wrapped in `RuntimeStudioNode` carrying its id. */
  function StudioNodeMarkup(runtime: string, nodeId: NodeId, body: string): string {
    StudioNodeOpening(runtime) + nodeId + "\">" + body + "</" + runtime + ".RuntimeStudioNode>"
  }

  /** Editor mode: slot content wrapped in a `Slots` (`multiple`) or
      `Placeholder` marker naming the property. */
  function SlotMarkup(runtime: string, multiple: bool, propJson: string, content: string): string {
    var tag := runtime + (if multiple then ".Slots" else ".Placeholder");
    "<" + tag + " prop=" + propJson + ">" + content + "</" + tag + ">"
  }

  /** The longest prefix of `s` without `c`. */
  function TakeUntil(s: string, c: char): string
    decreases |s|
  {
    if |s| == 0 || s[0] == c then "" else [s[0]] + TakeUntil(s[1..], c)
  }

  lemma {:induction false} TakeUntilStops(a: string, c: char, rest: string)
    requires c !in a
    ensures TakeUntil(a + [c] + rest, c) == a
    decreases |a|
  {
    if |a| > 0 {
      assert (a + [c] + rest)[1..] == a[1..] + [c] + rest;
      TakeUntilStops(a[1..], c, rest);
    }
  }

  /** How the editor reads a node id back from instrumented markup. */
  function ReadNodeId(runtime: string, text: string): Option<NodeId> {
    var opening := StudioNodeOpening(runtime);
    if opening <= text then Some(TakeUntil(text[|opening|..], '"')) else None
  }

  /** The instrumentation carries the node id: it reads back from the markup
      for every id without a double quote, whatever the body. */
  lemma StudioNodeMarkupCarriesId(runtime: string, nodeId: NodeId, body: string)
    requires '"' !in nodeId
    ensures ReadNodeId(runtime, StudioNodeMarkup(runtime, nodeId, body)) == Some(nodeId)
  {
    var opening := StudioNodeOpening(runtime);
    var text := StudioNodeMarkup(runtime, nodeId, body);
    var rest := ">" + body + "</" + runtime + ".RuntimeStudioNode>";
    assert text == opening + (nodeId + ['"'] + rest);
    assert text[|opening|..] == nodeId + ['"'] + rest;
    TakeUntilStops(nodeId, '"', rest);
  }
}

=== FILE: prop_resolution.dfy ===
/** Property resolution (`resolveProps`): the resolved properties of one node,
    built in three phases over an object seeded with its rendered children —
    user-authored properties, then state hook wiring, then defaults. */
module PropResolution {
  import opened Base
  import opened Records
  import opened Types
  import opened StudioDom
  import opened CompileContext
  import Printers

  /** The errors a user's properties can cause. */
  predicate PropertyError(e: CompileError) {
    e.UnsupportedDataQueryBinding? || e.ParseError?
  }

  /** The spread attributes after registering the loader variable `variable`:
      the previous ones, a space, then `{...variable}`. */
  function SpreadWith(previous: Option<PropExpression>, variable: string): (r: PropExpression)
    ensures r.Expression?
    ensures previous.None? ==> r.value == "{..." + variable + "}"
    ensures previous.Some? ==> r.value == Verbatim(previous.value) + " " + "{..." + variable + "}"
  {
    var head := if previous.Some? then Verbatim(previous.value) + " " else "";
    Expression(head + "{..." + variable + "}")
  }

  /** A user property is skipped when undeclared, undefined, or already
      resolved (which is how children take precedence). */
  predicate Skipped(propTypes: map<string, PropType>, result: ResolvedProps, name: string, value: Option<PropValue>) {
    name !in propTypes || value.None? || name in Keys(result)
  }

  /** A data query property with anything but a constant value. */
  predicate BoundDataQuery(propTypes: map<string, PropType>, name: string, value: Option<PropValue>) {
    name in propTypes && propTypes[name] == DataQueryType && value.Some? && !value.value.Const?
  }

  /** One user-authored property. */
  function ResolveUserProp(env: Env, ctx: Context, propTypes: map<string, PropType>,
                           result: ResolvedProps, name: string, value: Option<PropValue>)
    : (r: Result<(ResolvedProps, Context), CompileError>)
    ensures r.Err? ==> PropertyError(r.error)
    ensures Skipped(propTypes, result, name, value) ==> r == Ok((result, ctx))
    ensures !Skipped(propTypes, result, name, value) && BoundDataQuery(propTypes, name, value) ==>
      r == Err(UnsupportedDataQueryBinding(name))
    // a non-empty string constant of a data query registers exactly one loader
    ensures !Skipped(propTypes, result, name, value) && propTypes[name] == DataQueryType
            && value.value.Const? && value.value.value.Str? && value.value.value.s != "" ==>
      && r.Ok?
      && |r.value.1.dataLoaders| == |ctx.dataLoaders| + 1
      && var loader := r.value.1.dataLoaders[|ctx.dataLoaders|];
      && r.value.1.dataLoaders == ctx.dataLoaders + [DataLoader(value.value.value.s, loader.variable)]
      && loader.variable !in ctx.scope
      && r.value.1.scope == ctx.scope + {loader.variable}
      && Get(r.value.0, SpreadKey) == Some(SpreadWith(Get(result, SpreadKey), loader.variable))
      && forall k :: k != SpreadKey ==> Get(r.value.0, k) == Get(result, k)
    // any other constant of a data query is ignored
    ensures !Skipped(propTypes, result, name, value) && propTypes[name] == DataQueryType
            && value.value.Const? && !(value.value.value.Str? && value.value.value.s != "") ==>
      r == Ok((result, ctx))
    // the other properties resolve to one expression under their own name
    ensures !Skipped(propTypes, result, name, value) && propTypes[name] != DataQueryType && r.Ok? ==>
      && r.value.1 == ctx
      && forall k :: k != name ==> Get(r.value.0, k) == Get(result, k)
    ensures !Skipped(propTypes, result, name, value) && propTypes[name] != DataQueryType && value.value.Const? ==>
      r.Ok? && Get(r.value.0, name) == Some(Expression(env.services.stringify(value.value.value)))
    ensures !Skipped(propTypes, result, name, value) && propTypes[name] != DataQueryType && value.value.BoundExpression? ==>
      var formatted := env.services.formatBound(value.value.template, ctx.state, value.value.format);
      && (formatted.None? ==> r == Err(ParseError(value.value.template)))
      && (formatted.Some? ==> r.Ok? && Get(r.value.0, name) == Some(Expression(formatted.value)))
    ensures !Skipped(propTypes, result, name, value) && propTypes[name] != DataQueryType && value.value.Binding? ==>
      && r.Ok?
      && Get(r.value.0, name) == Some(
           if value.value.reference in ctx.state then Expression(ctx.state[value.value.reference]) else UndefinedExpression)
    ensures !Skipped(propTypes, result, name, value) && propTypes[name] != DataQueryType && value.value.UnknownTag? ==>
      r == Ok((result, ctx))
    ensures r.Ok? ==>
      Continues(ctx, r.value.1) && r.value.1.imports == ctx.imports
  {
    if Skipped(propTypes, result, name, value) then Ok((result, ctx))
    else if propTypes[name] == DataQueryType then
      match value.value
      case Const(Str(query)) =>
        if query == "" then Ok((result, ctx))
        else
          var (variable, ctx') := UseDataLoader(ctx, query);
          Ok((Put(result, SpreadKey, SpreadWith(Get(result, SpreadKey), variable)), ctx'))
      case Const(_) => Ok((result, ctx))
      case _ => Err(UnsupportedDataQueryBinding(name))
    else
      match value.value
      case Const(v) => Ok((Put(result, name, Expression(env.services.stringify(v))), ctx))
      case BoundExpression(template, format) =>
        (match env.services.formatBound(template, ctx.state, format)
         case Some(text) => Ok((Put(result, name, Expression(text)), ctx))
         case None => Err(ParseError(template)))
      case Binding(ref) =>
        var accessor := if ref in ctx.state then Expression(ctx.state[ref]) else UndefinedExpression;
        Ok((Put(result, name, accessor), ctx))
      case UnknownTag(_) => Ok((result, ctx))
  }

  /** The user-property phase over the node's properties in order. */
  function ResolveUserProps(env: Env, ctx: Context, propTypes: map<string, PropType>,
                            props: Entries<Option<PropValue>>, result: ResolvedProps)
    : (r: Result<(ResolvedProps, Context), CompileError>)
    ensures r.Err? ==> PropertyError(r.error)
    // children (the seed) are never overwritten by user properties
    ensures r.Ok? ==> forall k :: k in Keys(result) && k != SpreadKey ==> Get(r.value.0, k) == Get(result, k)
    ensures r.Ok? ==> Keys(result) <= Keys(r.value.0)
    // only declared properties that are not data queries appear under their own name
    ensures r.Ok? ==> forall k :: k in Keys(r.value.0) && k !in Keys(result) && k != SpreadKey ==>
      k in propTypes && propTypes[k] != DataQueryType && k in Keys(props)
    ensures r.Ok? ==>
      Continues(ctx, r.value.1) && r.value.1.imports == ctx.imports
    decreases |props|
  {
    if |props| == 0 then Ok((result, ctx))
    else
      var step :- ResolveUserProp(env, ctx, propTypes, result, props[0].0, props[0].1);
      var rest :- ResolveUserProps(env, step.1, propTypes, props[1..], step.0);
      ContinuesTrans(ctx, step.1, rest.1);
      assert forall i :: 1 <= i < |props| ==> props[i] == props[1..][i - 1];
      assert Keys(props) == {props[0].0} + Keys(props[1..]);
      Ok(rest)
  }

  /** A user property that binds a data query and is not pre-empted by a
      child of the same name aborts the compile. */
  lemma {:induction false} BoundDataQueryAborts(env: Env, ctx: Context, propTypes: map<string, PropType>,
                                                props: Entries<Option<PropValue>>, result: ResolvedProps, i: nat)
    requires i < |props| && props[i].0 !in Keys(result) && props[i].0 != SpreadKey
    requires BoundDataQuery(propTypes, props[i].0, props[i].1)
    ensures ResolveUserProps(env, ctx, propTypes, props, result).Err?
    decreases |props|
  {
    var first := ResolveUserProp(env, ctx, propTypes, result, props[0].0, props[0].1);
    if i > 0 && first.Ok? {
      var (result', ctx') := first.value;
      assert props[1..][i - 1] == props[i];
      BoundDataQueryAborts(env, ctx', propTypes, props[1..], result', i - 1);
    }
  }

  /** The state hook of `name` on node `nodeId`, if discovery allocated one. */
  function HookOf(hooks: Entries<StateHook>, nodeId: NodeId, name: string): Option<StateHook> {
    Get(hooks, StateKey(nodeId, name))
  }

  /** What the change-notification property is bound to: a closure through
      the handler's value getter, or the setter itself. */
  function ChangeBinding(argType: ArgType, hook: StateHook): (r: PropExpression)
    ensures r.Expression?
    ensures argType.onChangeHandler.None? ==> r.value == hook.setState
    ensures argType.onChangeHandler.Some? ==>
      r.value == Printers.ChangeClosure(argType.onChangeHandler.value, hook.setState)
  {
    match argType.onChangeHandler
    case Some(handler) => Expression(Printers.ChangeClosure(handler, hook.setState))
    case None => Expression(hook.setState)
  }

  /** One argument of the hook phase. */
  function WireStateHook(ctx: Context, nodeId: NodeId, name: string, argType: Option<ArgType>, result: ResolvedProps)
    : (r: ResolvedProps)
    ensures argType.None? || HookOf(ctx.stateHooks, nodeId, name).None? ==> r == result
    ensures argType.Some? && HookOf(ctx.stateHooks, nodeId, name).Some? ==>
      var hook := HookOf(ctx.stateHooks, nodeId, name).value;
      var change := argType.value.onChangeProp;
      && (change.None? || change.value != name ==> Get(r, name) == Some(Expression(hook.state)))
      && (change.Some? ==> Get(r, change.value) == Some(ChangeBinding(argType.value, hook)))
      && forall k :: k != name && (change.None? || k != change.value) ==> Get(r, k) == Get(result, k)
    ensures Keys(result) <= Keys(r)
  {
    match (argType, HookOf(ctx.stateHooks, nodeId, name))
    case (Some(a), Some(hook)) =>
      var withState := Put(result, name, Expression(hook.state));
      (match a.onChangeProp
       case Some(change) => Put(withState, change, ChangeBinding(a, hook))
       case None => withState)
    case _ => result
  }

  /** The keys the hook phase may write for these arguments: hooked argument
      names and their change-notification properties. */
  predicate Wired(hooks: Entries<StateHook>, nodeId: NodeId, argTypes: Entries<Option<ArgType>>, k: string) {
    exists i :: 0 <= i < |argTypes| && argTypes[i].1.Some? && HookOf(hooks, nodeId, argTypes[i].0).Some?
      && (argTypes[i].0 == k || argTypes[i].1.value.onChangeProp == Some(k))
  }

  /** The hook phase: only hooked arguments and their change properties are
      written; every other resolved property is kept. */
  function WireStateHooks(ctx: Context, nodeId: NodeId, argTypes: Entries<Option<ArgType>>, result: ResolvedProps)
    : (r: ResolvedProps)
    ensures forall k :: !Wired(ctx.stateHooks, nodeId, argTypes, k) ==> Get(r, k) == Get(result, k)
    ensures Keys(result) <= Keys(r)
    decreases |argTypes|
  {
    if |argTypes| == 0 then result
    else
      var step := WireStateHook(ctx, nodeId, argTypes[0].0, argTypes[0].1, result);
      var r := WireStateHooks(ctx, nodeId, argTypes[1..], step);
      forall k | !Wired(ctx.stateHooks, nodeId, argTypes, k)
        ensures Get(r, k) == Get(result, k)
      {
        WiredCons(ctx.stateHooks, nodeId, argTypes, k);
      }
      r
  }

  lemma WiredCons(hooks: Entries<StateHook>, nodeId: NodeId, argTypes: Entries<Option<ArgType>>, k: string)
    requires |argTypes| > 0
    ensures Wired(hooks, nodeId, argTypes, k) <==>
      Wired(hooks, nodeId, argTypes[..1], k) || Wired(hooks, nodeId, argTypes[1..], k)
  {
    if Wired(hooks, nodeId, argTypes, k) {
      var i :| 0 <= i < |argTypes| && argTypes[i].1.Some? && HookOf(hooks, nodeId, argTypes[i].0).Some?
        && (argTypes[i].0 == k || argTypes[i].1.value.onChangeProp == Some(k));
      if i == 0 {
        assert argTypes[..1][0] == argTypes[0];
      } else {
        assert argTypes[1..][i - 1] == argTypes[i];
      }
    }
    if Wired(hooks, nodeId, argTypes[1..], k) {
      var i :| 0 <= i < |argTypes[1..]| && argTypes[1..][i].1.Some? && HookOf(hooks, nodeId, argTypes[1..][i].0).Some?
        && (argTypes[1..][i].0 == k || argTypes[1..][i].1.value.onChangeProp == Some(k));
      assert argTypes[i + 1] == argTypes[1..][i];
    }
  }

  /** One argument of the default phase: a defined default is written under
      `defaultValueProp ?? name` only while `name` itself is unresolved. */
  function ApplyDefault(services: Services, name: string, argType: Option<ArgType>, result: ResolvedProps)
    : (r: ResolvedProps)
    ensures argType.None? || argType.value.defaultValue.None? || name in Keys(result) ==> r == result
    ensures argType.Some? && argType.value.defaultValue.Some? && name !in Keys(result) ==>
      var target := argType.value.defaultValueProp.GetOr(name);
      && Get(r, target) == Some(Expression(services.stringify(argType.value.defaultValue.value)))
      && forall k :: k != target ==> Get(r, k) == Get(result, k)
  {
    match argType
    case Some(a) =>
      if a.defaultValue.Some? && name !in Keys(result) then
        Put(result, a.defaultValueProp.GetOr(name), Expression(services.stringify(a.defaultValue.value)))
      else result
    case None => result
  }

  /** The argument redirects its default to the differently named property `k`. */
  predicate RedirectsDefault(arg: (string, Option<ArgType>), k: string) {
    arg.1.Some? && arg.1.value.defaultValue.Some? && arg.1.value.defaultValueProp == Some(k) && arg.0 != k
  }

  /** The argument has a default destined for `k`. */
  predicate DefaultsTo(arg: (string, Option<ArgType>), k: string) {
    arg.1.Some? && arg.1.value.defaultValue.Some? && arg.1.value.defaultValueProp.GetOr(arg.0) == k
  }

  /** The default phase: a resolved property is only ever replaced through a
      default redirected to it from a differently named argument, and only
      default targets are added. */
  function ApplyDefaults(services: Services, argTypes: Entries<Option<ArgType>>, result: ResolvedProps)
    : (r: ResolvedProps)
    ensures forall k :: k in Keys(result) && Get(r, k) != Get(result, k) ==>
      exists i :: 0 <= i < |argTypes| && RedirectsDefault(argTypes[i], k)
    ensures forall k :: Get(r, k) != Get(result, k) ==>
      exists i :: 0 <= i < |argTypes| && DefaultsTo(argTypes[i], k)
    ensures Keys(result) <= Keys(r)
    decreases |argTypes|
  {
    if |argTypes| == 0 then result
    else
      var step := ApplyDefault(services, argTypes[0].0, argTypes[0].1, result);
      var r := ApplyDefaults(services, argTypes[1..], step);
      forall k | Get(r, k) != Get(result, k)
        ensures exists i :: 0 <= i < |argTypes| && DefaultsTo(argTypes[i], k)
        ensures k in Keys(result) ==> exists i :: 0 <= i < |argTypes| && RedirectsDefault(argTypes[i], k)
      {
        if Get(step, k) != Get(result, k) {
          assert DefaultsTo(argTypes[0], k);
          if k in Keys(result) {
            assert RedirectsDefault(argTypes[0], k);
          }
        } else {
          var j :| 0 <= j < |argTypes[1..]| && DefaultsTo(argTypes[1..][j], k);
          assert argTypes[j + 1] == argTypes[1..][j];
          if k in Keys(result) {
            var j' :| 0 <= j' < |argTypes[1..]| && RedirectsDefault(argTypes[1..][j'], k);
            assert argTypes[j' + 1] == argTypes[1..][j'];
          }
        }
      }
      r
  }

  /** `resolveProps(node, resolvedChildren)`. */
  function ResolveProps(env: Env, ctx: Context, node: Node, seed: ResolvedProps)
    : (r: Result<(ResolvedProps, Context), CompileError>)
    ensures r.Err? ==> PropertyError(r.error)
    ensures r.Ok? ==> Keys(seed) <= Keys(r.value.0)
    // a child survives unless a state hook or a redirected default claims its key
    ensures r.Ok? ==> forall k :: k in Keys(seed) && k != SpreadKey && Get(r.value.0, k) != Get(seed, k) ==>
      GetComponentDefinition(env, node).Some?
      && var argTypes := GetComponentDefinition(env, node).value.argTypes;
      (Wired(ctx.stateHooks, node.id, argTypes, k) || exists i :: 0 <= i < |argTypes| && RedirectsDefault(argTypes[i], k))
    ensures r.Ok? ==>
      Continues(ctx, r.value.1) && r.value.1.imports == ctx.imports
  {
    var propTypes := GetPropTypes(env, node);
    var (afterUser, ctx') :- ResolveUserProps(env, ctx, propTypes, node.props, seed);
    match GetComponentDefinition(env, node)
    case None => Ok((afterUser, ctx'))
    case Some(component) =>
      var afterHooks := WireStateHooks(ctx', node.id, component.argTypes, afterUser);
      var afterDefaults := ApplyDefaults(env.services, component.argTypes, afterHooks);
      ChildrenSurvive(env.services, ctx', node.id, component.argTypes, seed, afterUser);
      Ok((afterDefaults, ctx'))
  }

  /** After the user phase kept the children, the hook and default phases
      change a child only through a state hook or a redirected default. */
  lemma ChildrenSurvive(services: Services, ctx: Context, nodeId: NodeId,
                        argTypes: Entries<Option<ArgType>>, seed: ResolvedProps, afterUser: ResolvedProps)
    requires forall k :: k in Keys(seed) && k != SpreadKey ==> Get(afterUser, k) == Get(seed, k)
    requires Keys(seed) <= Keys(afterUser)
    ensures var r := ApplyDefaults(services, argTypes, WireStateHooks(ctx, nodeId, argTypes, afterUser));
      forall k :: k in Keys(seed) && k != SpreadKey && Get(r, k) != Get(seed, k) ==>
        Wired(ctx.stateHooks, nodeId, argTypes, k) || exists i :: 0 <= i < |argTypes| && RedirectsDefault(argTypes[i], k)
  {
    var afterHooks := WireStateHooks(ctx, nodeId, argTypes, afterUser);
    var r := ApplyDefaults(services, argTypes, afterHooks);
    forall k | k in Keys(seed) && k != SpreadKey && Get(r, k) != Get(seed, k)
      ensures Wired(ctx.stateHooks, nodeId, argTypes, k) || exists i :: 0 <= i < |argTypes| && RedirectsDefault(argTypes[i], k)
    {
      if !Wired(ctx.stateHooks, nodeId, argTypes, k) {
        assert Get(afterHooks, k) == Get(seed, k);
        assert k in Keys(afterHooks) && Get(r, k) != Get(afterHooks, k);
      }
    }
  }
}

=== FILE: records.dfy ===
/** Plain JavaScript objects with string keys (`{ [key: string]: V }`) as
    insertion-ordered entry lists: `Object.entries` order is the list order,
    `obj[k]` is the first entry for `k`, and `obj[k] = v` replaces that entry
    in place or appends a new one. The objects of the modelled program never
    hold a key twice; `Distinct` states that, and `Put` preserves it. */
module Records {
  import opened Base

  type Entries<V> = seq<(string, V)>

  function Keys<V>(e: Entries<V>): set<string>
    decreases |e|
  {
    if |e| == 0 then {} else {e[0].0} + Keys(e[1..])
  }

  function Values<V>(e: Entries<V>): (vs: seq<V>)
    ensures |vs| == |e|
    ensures forall i :: 0 <= i < |e| ==> vs[i] == e[i].1
  {
    seq(|e|, i requires 0 <= i < |e| => e[i].1)
  }

  /** No key occurs twice. */
  predicate Distinct<V>(e: Entries<V>) {
    forall i, j :: 0 <= i < j < |e| ==> e[i].0 != e[j].0
  }

  lemma {:induction false} KeysIndex<V>(e: Entries<V>, k: string)
    ensures k in Keys(e) <==> exists i :: 0 <= i < |e| && e[i].0 == k
    decreases |e|
  {
    if |e| > 0 {
      KeysIndex(e[1..], k);
      if k in Keys(e[1..]) {
        var i :| 0 <= i < |e[1..]| && e[1..][i].0 == k;
        assert e[i + 1].0 == k;
      }
      if exists i :: 0 <= i < |e| && e[i].0 == k {
        var i :| 0 <= i < |e| && e[i].0 == k;
        if i > 0 {
          assert e[1..][i - 1].0 == k;
        }
      }
    }
  }

  lemma {:induction false} KeysAppend<V>(e: Entries<V>, k: string, v: V)
    ensures Keys(e + [(k, v)]) == Keys(e) + {k}
    decreases |e|
  {
    if |e| > 0 {
      assert (e + [(k, v)])[1..] == e[1..] + [(k, v)];
      KeysAppend(e[1..], k, v);
    }
  }

  /** `obj[k]`: the value of the first entry for `k`, absent when there is none. */
  function Get<V>(e: Entries<V>, k: string): (r: Option<V>)
    ensures r.Some? <==> k in Keys(e)
    ensures r.Some? ==> exists i :: 0 <= i < |e| && e[i] == (k, r.value)
    decreases |e|
  {
    if |e| == 0 then None
    else if e[0].0 == k then Some(e[0].1)
    else
      var r := Get(e[1..], k);
      assert r.Some? ==> exists i :: 0 <= i < |e[1..]| && e[1..][i] == (k, r.value);
      r
  }

  lemma {:induction false} GetAppend<V>(e: Entries<V>, k: string, v: V, j: string)
    requires k !in Keys(e)
    ensures Get(e + [(k, v)], j) == if j == k then Some(v) else Get(e, j)
    decreases |e|
  {
    if |e| > 0 {
      assert (e + [(k, v)])[1..] == e[1..] + [(k, v)];
      GetAppend(e[1..], k, v, j);
    }
  }

  /** `obj[k] = v`. */
  function Put<V>(e: Entries<V>, k: string, v: V): (r: Entries<V>)
    ensures Get(r, k) == Some(v)
    ensures forall j :: j != k ==> Get(r, j) == Get(e, j)
    ensures Keys(r) == Keys(e) + {k}
    ensures k !in Keys(e) ==> r == e + [(k, v)]
    ensures k in Keys(e) ==> |r| == |e| && forall i :: 0 <= i < |e| ==> r[i].0 == e[i].0
    decreases |e|
  {
    if |e| == 0 then [(k, v)]
    else if e[0].0 == k then [(k, v)] + e[1..]
    else
      var r := [e[0]] + Put(e[1..], k, v);
      assert r[1..] == Put(e[1..], k, v);
      r
  }

  /** Assigning a property never makes an object hold a key twice. */
  lemma PutDistinct<V>(e: Entries<V>, k: string, v: V)
    requires Distinct(e)
    ensures Distinct(Put(e, k, v))
  {
    var r := Put(e, k, v);
    if k !in Keys(e) {
      KeysIndex(e, k);
    } else {
      forall i, j | 0 <= i < j < |r|
        ensures r[i].0 != r[j].0
      {
        assert r[i].0 == e[i].0 && r[j].0 == e[j].0;
      }
    }
  }

  /** `const { [k]: _, ...rest } = obj`: every entry for `k` dropped, the
      others kept in order. */
  function Remove<V>(e: Entries<V>, k: string): (r: Entries<V>)
    ensures Get(r, k) == None
    ensures forall j :: j != k ==> Get(r, j) == Get(e, j)
    ensures Keys(r) == Keys(e) - {k}
    decreases |e|
  {
    if |e| == 0 then []
    else if e[0].0 == k then Remove(e[1..], k)
    else
      var r := [e[0]] + Remove(e[1..], k);
      assert r[1..] == Remove(e[1..], k);
      r
  }

  /** Extending an object by appending entries keeps what its keys read. */
  lemma {:induction false} GetPrefix<V>(e: Entries<V>, e': Entries<V>, k: string)
    requires e <= e'
    requires k in Keys(e)
    ensures Get(e', k) == Get(e, k)
    decreases |e|
  {
    if e[0].0 != k {
      assert e[1..] <= e'[1..];
      GetPrefix(e[1..], e'[1..], k);
    }
  }

  lemma {:induction false} KeysPrefix<V>(e: Entries<V>, e': Entries<V>)
    requires e <= e'
    ensures Keys(e) <= Keys(e')
    decreases |e|
  {
    if |e| > 0 {
      assert e[1..] <= e'[1..];
      KeysPrefix(e[1..], e'[1..]);
    }
  }
}

=== FILE: scopes.dfy ===
/** The module-level identifier scope of one compile (`codeGen/Scope`): the
    set of identifiers allocated so far. Scopes only grow. */
module Scopes {

  /** An upper bound on the length of the identifiers in `used`. */
  ghost function MaxLength(used: set<string>): (n: nat)
    ensures forall x :: x in used ==> |x| <= n
  {
    if used == {} then 0
    else
      var x :| x in used;
      var m := MaxLength(used - {x});
      if |x| > m then |x| else m
  }

  /** The first of `candidate`, `candidate_`, `candidate__`, ... that is not
      yet used. */
  function Disambiguate(used: set<string>, candidate: string): (name: string)
    requires candidate != ""
    ensures name !in used
    ensures candidate <= name
    ensures candidate !in used ==> name == candidate
    decreases MaxLength(used) + 1 - |candidate|
  {
    if candidate !in used then candidate else Disambiguate(used, candidate + "_")
  }

  /** `scope.createUniqueBinding(suggestedName)`: a non-empty identifier that
      is not yet allocated, the suggestion itself whenever that is free. The
      caller records it by adding it to the scope (see `Allocate`). */
  function CreateUniqueBinding(used: set<string>, suggestedName: string): (name: string)
    ensures name !in used
    ensures name != ""
    ensures suggestedName != "" && suggestedName !in used ==> name == suggestedName
  {
    Disambiguate(used, if suggestedName == "" then "_" else suggestedName)
  }

  /** Allocation: the fresh identifier and the scope that now records it. */
  function Allocate(used: set<string>, suggestedName: string): (r: (string, set<string>))
    ensures r.0 !in used && r.0 != ""
    ensures r.1 == used + {r.0}
    ensures suggestedName != "" && suggestedName !in used ==> r.0 == suggestedName
  {
    var name := CreateUniqueBinding(used, suggestedName);
    (name, used + {name})
  }
}

=== FILE: state_collection.dfy ===
/** Binding discovery (`collectAllState` / `collectInterpolation`): one pass
    over every descendant of the page that allocates a `useState` hook per
    bound (node, property) pair and a `useMemo` hook per referenced derived
    state node, and records the accessor text of every reference. */
module StateCollection {
  import opened Base
  import opened Records
  import opened Types
  import opened StudioDom
  import opened CompileContext
  import Scopes
  import Text

  // ----- Anatomy of a reference `nodeName.prop.sub.path` -----

  function RefNodeName(ref: string): string {
    Text.Split(ref, '.')[0]
  }

  function RefPath(ref: string): seq<string> {
    Text.Split(ref, '.')[1..]
  }

  /** The bound property; `undefined` when the reference has no '.'. */
  function RefProp(ref: string): string {
    var path := RefPath(ref);
    if |path| == 0 then "undefined" else path[0]
  }

  function RefSubPath(ref: string): seq<string> {
    var path := RefPath(ref);
    if |path| == 0 then [] else path[1..]
  }

  /** The node a reference names, if any. */
  function Target(env: Env, ref: string): (r: Option<Node>)
    requires WellFormed(env.dom)
    ensures r.Some? ==> r.value.id in env.dom.nodes && env.dom.nodes[r.value.id] == r.value
  {
    match GetNodeIdByName(env.dom, RefNodeName(ref))
    case Some(id) => Some(env.dom.nodes[id])
    case None => None
  }

  /** A property is bindable when the component of its node declares it with
      a change handler. */
  predicate Bindable(env: Env, node: Node, prop: string)
    requires node.Element?
  {
    && node.component in env.catalog
    && Get(env.catalog[node.component].argTypes, prop).Some?
    && Get(env.catalog[node.component].argTypes, prop).value.Some?
    && Get(env.catalog[node.component].argTypes, prop).value.value.onChangeHandler.Some?
  }

  /** The three checks before a state hook is allocated for `prop` of `node`. */
  function ControlledArgType(env: Env, node: Node, prop: string): (r: Result<ArgType, CompileError>)
    requires node.Element?
    ensures r.Ok? <==> Bindable(env, node, prop)
    ensures r.Ok? ==> Some(r.value) == Get(env.catalog[node.component].argTypes, prop).value
    ensures r == Err(MissingComponent(node.id)) <==> node.component !in env.catalog
    ensures r == Err(MissingArgType(node.name, prop)) <==>
      node.component in env.catalog
      && (Get(env.catalog[node.component].argTypes, prop).None? || Get(env.catalog[node.component].argTypes, prop).value.None?)
    ensures r == Err(NotControlled(node.name, prop)) <==>
      node.component in env.catalog
      && Get(env.catalog[node.component].argTypes, prop).Some?
      && Get(env.catalog[node.component].argTypes, prop).value.Some?
      && Get(env.catalog[node.component].argTypes, prop).value.value.onChangeHandler.None?
  {
    if node.component !in env.catalog then Err(MissingComponent(node.id))
    else
      var declared := Get(env.catalog[node.component].argTypes, prop);
      if declared.None? || declared.value.None? then Err(MissingArgType(node.name, prop))
      else if declared.value.value.onChangeHandler.None? then Err(NotControlled(node.name, prop))
      else Ok(declared.value.value)
  }

  // ----- What discovery records -----

  /** The accessor a reference stands for, read off the hook tables. */
  function Accessor(env: Env, ctx: Context, ref: string): Option<string>
    requires WellFormed(env.dom)
  {
    match Target(env, ref)
    case Some(Element(id, _, _, _)) =>
      (match Get(ctx.stateHooks, StateKey(id, RefProp(ref)))
       case Some(hook) => Some(Text.Join([hook.state] + RefSubPath(ref), "."))
       case None => None)
    case Some(DerivedState(id, _, _, _)) => Get(ctx.memoHooks, id)
    case _ => None
  }

  /** Every recorded accessor agrees with the hook tables. */
  predicate Consistent(env: Env, ctx: Context)
    requires WellFormed(env.dom)
  {
    forall ref :: ref in ctx.state ==> Accessor(env, ctx, ref) == Some(ctx.state[ref])
  }

  /** A reference to an element or a derived state node has an accessor. */
  predicate Covered(env: Env, ctx: Context, ref: string)
    requires WellFormed(env.dom)
  {
    (Target(env, ref).Some? && (Target(env, ref).value.Element? || Target(env, ref).value.DerivedState?))
      ==> ref in ctx.state
  }

  /** Discovery only appends hooks and only adds accessors. */
  predicate Extends(c: Context, c': Context) {
    && c.stateHooks <= c'.stateHooks
    && c.memoHooks <= c'.memoHooks
    && c.state.Keys <= c'.state.Keys
  }

  /** Discovery leaves the rest of the context alone. */
  predicate OnlyBindingsChange(c: Context, c': Context) {
    && SameSetup(c, c')
    && c'.imports == c.imports
    && c'.dataLoaders == c.dataLoaders
    && c.scope <= c'.scope
  }

  lemma AccessorStable(env: Env, c: Context, c': Context, ref: string)
    requires WellFormed(env.dom)
    requires c.stateHooks <= c'.stateHooks && c.memoHooks <= c'.memoHooks
    requires Accessor(env, c, ref).Some?
    ensures Accessor(env, c', ref) == Accessor(env, c, ref)
  {
    match Target(env, ref)
    case Some(Element(id, _, _, _)) =>
      GetPrefix(c.stateHooks, c'.stateHooks, StateKey(id, RefProp(ref)));
    case Some(DerivedState(id, _, _, _)) =>
      GetPrefix(c.memoHooks, c'.memoHooks, id);
    case _ =>
  }

  /** Recording the accessor of `ref` after extending the hook tables keeps
      the recorded accessors consistent and unchanged. */
  lemma RecordKeepsConsistent(env: Env, c: Context, c': Context, ref: string)
    requires WellFormed(env.dom)
    requires Consistent(env, c)
    requires c.stateHooks <= c'.stateHooks && c.memoHooks <= c'.memoHooks
    requires Accessor(env, c', ref).Some?
    requires c'.state == c.state[ref := Accessor(env, c', ref).value]
    ensures Consistent(env, c')
    ensures forall k :: k in c.state ==> c'.state[k] == c.state[k]
  {
    forall k | k in c.state
      ensures Accessor(env, c', k) == Some(c.state[k]) && c'.state[k] == c.state[k]
    {
      AccessorStable(env, c, c', k);
    }
  }

  // ----- One reference -----

  /** First reference to `prop` of element `node`: check the component's
      descriptor, then allocate the state and setter identifiers. */
  function AllocateStateHook(env: Env, ctx: Context, node: Node, nodeName: string, prop: string)
    : (r: Result<(StateHook, Context), CompileError>)
    requires node.Element?
    requires StateKey(node.id, prop) !in Keys(ctx.stateHooks)
    ensures r.Ok? <==> Bindable(env, node, prop)
    ensures r.Err? ==> r == ControlledArgType(env, node, prop).PropagateFailure()
    ensures r.Ok? ==>
      var (hook, ctx') := r.value;
      && hook.state !in ctx.scope && hook.setState !in ctx.scope && hook.state != hook.setState
      && hook.defaultValue == ControlledArgType(env, node, prop).value.defaultValue
      && ctx'.scope == ctx.scope + {hook.state, hook.setState}
      && ctx'.stateHooks == ctx.stateHooks + [(StateKey(node.id, prop), hook)]
      && ctx'.memoHooks == ctx.memoHooks && ctx'.state == ctx.state
      && OnlyBindingsChange(ctx, ctx')
      && (Inv(ctx) ==> Inv(ctx'))
    // the identifiers are the camel-cased suggestions whenever those are free
    ensures r.Ok? ==>
      var suggested := env.services.camelCase([nodeName, prop]);
      var setSuggested := env.services.camelCase(["set", nodeName, prop]);
      && (suggested != "" && suggested !in ctx.scope ==> r.value.0.state == suggested)
      && (setSuggested != "" && setSuggested !in ctx.scope && setSuggested != r.value.0.state ==>
            r.value.0.setState == setSuggested)
  {
    var argType :- ControlledArgType(env, node, prop);
    var (state, scope1) := Scopes.Allocate(ctx.scope, env.services.camelCase([nodeName, prop]));
    var (setState, scope2) := Scopes.Allocate(scope1, env.services.camelCase(["set", nodeName, prop]));
    var hook := StateHook(state, setState, argType.defaultValue);
    var ctx' := ctx.(scope := scope2, stateHooks := Put(ctx.stateHooks, StateKey(node.id, prop), hook));
    NewHookKeepsInv(ctx, ctx', StateKey(node.id, prop), hook);
    Ok((hook, ctx'))
  }

  lemma NewHookKeepsInv(ctx: Context, ctx': Context, key: string, hook: StateHook)
    requires key !in Keys(ctx.stateHooks)
    requires hook.state !in ctx.scope && hook.setState !in ctx.scope + {hook.state}
    requires ctx'.scope == ctx.scope + {hook.state} + {hook.setState}
    requires ctx'.stateHooks == ctx.stateHooks + [(key, hook)]
    requires ctx'.memoHooks == ctx.memoHooks && ctx'.dataLoaders == ctx.dataLoaders && ctx'.imports == ctx.imports
    ensures Inv(ctx) ==> Inv(ctx')
  {
    var h := HookIdents(ctx.stateHooks);
    var rest := MemoIdents(ctx.memoHooks) + LoaderIdents(ctx.dataLoaders) + AliasIdents(ctx.imports.entries);
    assert HookIdents(ctx'.stateHooks) == h + [hook.state, hook.setState] by {
      assert ctx'.stateHooks[..|ctx'.stateHooks| - 1] == ctx.stateHooks;
    }
    assert Idents(ctx) == h + rest;
    assert Idents(ctx') == (h + [hook.state]) + [hook.setState] + rest;
    assert h + [hook.state] + rest == h + ([hook.state] + rest);
    if Inv(ctx) {
      DeclareFresh(h, rest, ctx.scope, hook.state);
      DeclareFresh(h + [hook.state], rest, ctx.scope + {hook.state}, hook.setState);
      PutDistinct(ctx.stateHooks, key, hook);
    }
  }

  lemma NewMemoKeepsInv(ctx: Context, ctx': Context, id: NodeId, name: string)
    requires id !in Keys(ctx.memoHooks)
    requires name !in ctx.scope
    requires ctx'.scope == ctx.scope + {name}
    requires ctx'.memoHooks == ctx.memoHooks + [(id, name)]
    requires ctx'.stateHooks == ctx.stateHooks && ctx'.dataLoaders == ctx.dataLoaders && ctx'.imports == ctx.imports
    ensures Inv(ctx) ==> Inv(ctx')
  {
    var pre := HookIdents(ctx.stateHooks) + MemoIdents(ctx.memoHooks);
    var post := LoaderIdents(ctx.dataLoaders) + AliasIdents(ctx.imports.entries);
    assert MemoIdents(ctx'.memoHooks) == MemoIdents(ctx.memoHooks) + [name] by {
      assert ctx'.memoHooks[..|ctx'.memoHooks| - 1] == ctx.memoHooks;
    }
    assert Idents(ctx) == pre + post;
    assert Idents(ctx') == pre + [name] + post;
    if Inv(ctx) {
      DeclareFresh(pre, post, ctx.scope, name);
      PutDistinct(ctx.memoHooks, id, name);
    }
  }

  lemma ElementAccessor(env: Env, c: Context, node: Node, ref: string, hook: StateHook)
    requires WellFormed(env.dom)
    requires Target(env, ref) == Some(node) && node.Element?
    requires Get(c.stateHooks, StateKey(node.id, RefProp(ref))) == Some(hook)
    ensures Accessor(env, c, ref) == Some(Text.Join([hook.state] + RefSubPath(ref), "."))
  {
  }

  /** A reference to an element property: reuse or allocate its state hook,
      then record `[state, ...subPath].join('.')`. */
  function CollectElementRef(env: Env, ctx: Context, node: Node, ref: string): (r: Result<Context, CompileError>)
    requires WellFormed(env.dom)
    requires Target(env, ref) == Some(node) && node.Element?
    ensures r.Err? <==> StateKey(node.id, RefProp(ref)) !in Keys(ctx.stateHooks) && !Bindable(env, node, RefProp(ref))
    ensures StateKey(node.id, RefProp(ref)) in Keys(ctx.stateHooks) ==>
      && r.Ok?
      && r.value.stateHooks == ctx.stateHooks
      && r.value.scope == ctx.scope
    ensures r.Ok? ==>
      (&& Get(r.value.stateHooks, StateKey(node.id, RefProp(ref))).Some?
       && ref in r.value.state
       && r.value.state[ref] == Text.Join([Get(r.value.stateHooks, StateKey(node.id, RefProp(ref))).value.state] + RefSubPath(ref), "."))
    ensures StateKey(node.id, RefProp(ref)) !in Keys(ctx.stateHooks) && r.Ok? ==>
      var hook := Get(r.value.stateHooks, StateKey(node.id, RefProp(ref))).value;
      && r.value.stateHooks == ctx.stateHooks + [(StateKey(node.id, RefProp(ref)), hook)]
      && hook.state !in ctx.scope && hook.setState !in ctx.scope && hook.state != hook.setState
      && r.value.scope == ctx.scope + {hook.state, hook.setState}
    ensures r.Ok? ==>
      && Extends(ctx, r.value)
      && OnlyBindingsChange(ctx, r.value)
      && r.value.memoHooks == ctx.memoHooks
      && Accessor(env, r.value, ref).Some?
      && r.value.state == ctx.state[ref := Accessor(env, r.value, ref).value]
      && (Inv(ctx) ==> Inv(r.value))
  {
    var key := StateKey(node.id, RefProp(ref));
    var found := Get(ctx.stateHooks, key);
    var hookAndCtx :- (if found.Some? then Ok((found.value, ctx))
                      else AllocateStateHook(env, ctx, node, RefNodeName(ref), RefProp(ref)));
    var (hook, ctx1) := hookAndCtx;
    assert Get(ctx1.stateHooks, key) == Some(hook) by {
      if found.None? {
        GetAppend(ctx.stateHooks, key, hook, key);
      }
    }
    var ctx' := ctx1.(state := ctx1.state[ref := Text.Join([hook.state] + RefSubPath(ref), ".")]);
    ElementAccessor(env, ctx', node, ref, hook);
    Ok(ctx')
  }

  /** Every memo hook belongs to a derived state node of the document and
      has a non-empty name. */
  predicate MemosDerived(dom: Document, memos: Entries<string>) {
    forall i :: 0 <= i < |memos| ==>
      memos[i].0 in dom.nodes && dom.nodes[memos[i].0].DerivedState? && memos[i].1 != ""
  }

  lemma NewMemoKeepsDerived(env: Env, ctx: Context, ctx': Context, id: NodeId, name: string)
    requires id in env.dom.nodes && env.dom.nodes[id].DerivedState? && name != ""
    requires ctx'.memoHooks == ctx.memoHooks + [(id, name)]
    ensures MemosDerived(env.dom, ctx.memoHooks) ==> MemosDerived(env.dom, ctx'.memoHooks)
  {
  }

  /** A reference to a derived state node: reuse or allocate its memo hook,
      named after the node, and record it. */
  function CollectDerivedRef(env: Env, ctx: Context, node: Node, ref: string): (r: Context)
    requires WellFormed(env.dom)
    requires Target(env, ref) == Some(node) && node.DerivedState?
    ensures Get(r.memoHooks, node.id).Some?
    ensures node.id in Keys(ctx.memoHooks) ==> r.memoHooks == ctx.memoHooks && r.scope == ctx.scope
    ensures node.id !in Keys(ctx.memoHooks) ==>
      && Get(r.memoHooks, node.id).value !in ctx.scope
      && r.memoHooks == ctx.memoHooks + [(node.id, Get(r.memoHooks, node.id).value)]
      && r.scope == ctx.scope + {Get(r.memoHooks, node.id).value}
    ensures Extends(ctx, r) && OnlyBindingsChange(ctx, r)
    ensures r.stateHooks == ctx.stateHooks
    ensures Accessor(env, r, ref) == Get(r.memoHooks, node.id)
    ensures r.state == ctx.state[ref := Get(r.memoHooks, node.id).value]
    ensures Inv(ctx) ==> Inv(r)
    ensures node.id !in Keys(ctx.memoHooks) && node.name != "" && node.name !in ctx.scope ==>
      Get(r.memoHooks, node.id) == Some(node.name)
  {
    var (name, ctx1) := MemoFor(env, ctx, node);
    var r := ctx1.(state := ctx1.state[ref := name]);
    InvFrame(ctx1, r);
    DerivedAccessor(env, r, node, ref);
    r
  }

  lemma DerivedAccessor(env: Env, c: Context, node: Node, ref: string)
    requires WellFormed(env.dom)
    requires Target(env, ref) == Some(node) && node.DerivedState?
    ensures Accessor(env, c, ref) == Get(c.memoHooks, node.id)
  {
  }

  /** The memo hook of a derived state node, allocated on first use. */
  function MemoFor(env: Env, ctx: Context, node: Node): (r: (string, Context))
    requires node.id in env.dom.nodes && env.dom.nodes[node.id].DerivedState?
    ensures Get(r.1.memoHooks, node.id) == Some(r.0)
    ensures node.id in Keys(ctx.memoHooks) ==> r.1 == ctx
    ensures node.id !in Keys(ctx.memoHooks) ==>
      && r.0 !in ctx.scope
      && r.1 == ctx.(scope := ctx.scope + {r.0}, memoHooks := ctx.memoHooks + [(node.id, r.0)])
    ensures Inv(ctx) ==> Inv(r.1)
    ensures MemosDerived(env.dom, ctx.memoHooks) ==> MemosDerived(env.dom, r.1.memoHooks)
    // a new memo variable is named after the node whenever that name is free
    ensures node.id !in Keys(ctx.memoHooks) && node.name != "" && node.name !in ctx.scope ==> r.0 == node.name
  {
    match Get(ctx.memoHooks, node.id)
    case Some(name) => (name, ctx)
    case None =>
      var (name, scope') := Scopes.Allocate(ctx.scope, node.name);
      var memo' := Put(ctx.memoHooks, node.id, name);
      assert memo' == ctx.memoHooks + [(node.id, name)];
      var ctx1 := ctx.(scope := scope', memoHooks := memo');
      NewMemoKeepsInv(ctx, ctx1, node.id, name);
      NewMemoKeepsDerived(env, ctx, ctx1, node.id, name);
      (name, ctx1)
  }

  /** The reference resolves to an element whose property has no hook yet and
      cannot be bound. */
  predicate AllocationFails(env: Env, ctx: Context, ref: string)
    requires WellFormed(env.dom)
  {
    && Target(env, ref).Some?
    && Target(env, ref).value.Element?
    && StateKey(Target(env, ref).value.id, RefProp(ref)) !in Keys(ctx.stateHooks)
    && !Bindable(env, Target(env, ref).value, RefProp(ref))
  }

  /** `collectInterpolation(ref)`. An unknown node name only warns; a page
      reference records nothing. */
  function CollectInterpolation(env: Env, ctx: Context, ref: string): (r: Result<Context, CompileError>)
    requires WellFormed(env.dom)
    ensures r.Err? <==> AllocationFails(env, ctx, ref)
    ensures Target(env, ref).None? || Target(env, ref).value.Page? ==> r == Ok(ctx)
    ensures Target(env, ref).Some? && Target(env, ref).value.Element? ==>
      var key := StateKey(Target(env, ref).value.id, RefProp(ref));
      && (key in Keys(ctx.stateHooks) ==> r.Ok? && r.value.stateHooks == ctx.stateHooks && r.value.scope == ctx.scope)
      && (r.Ok? ==>
            (&& r.value.memoHooks == ctx.memoHooks
             && Get(r.value.stateHooks, key).Some?
             && ref in r.value.state
             && r.value.state[ref] == Text.Join([Get(r.value.stateHooks, key).value.state] + RefSubPath(ref), ".")))
      && (key !in Keys(ctx.stateHooks) && r.Ok? ==>
            var hook := Get(r.value.stateHooks, key).value;
            && r.value.stateHooks == ctx.stateHooks + [(key, hook)]
            && hook.state !in ctx.scope && hook.setState !in ctx.scope && hook.state != hook.setState
            && r.value.scope == ctx.scope + {hook.state, hook.setState})
    ensures Target(env, ref).Some? && Target(env, ref).value.DerivedState? ==>
      var id := Target(env, ref).value.id;
      && r.Ok? && r.value.stateHooks == ctx.stateHooks
      && (id in Keys(ctx.memoHooks) ==> r.value.memoHooks == ctx.memoHooks && r.value.scope == ctx.scope)
      && Get(r.value.memoHooks, id).Some? && ref in r.value.state && r.value.state[ref] == Get(r.value.memoHooks, id).value
    ensures r.Ok? ==> Extends(ctx, r.value) && OnlyBindingsChange(ctx, r.value)
    ensures r.Ok? ==> Covered(env, r.value, ref)
    ensures r.Ok? && Consistent(env, ctx) ==>
      Consistent(env, r.value) && forall k :: k in ctx.state ==> r.value.state[k] == ctx.state[k]
    ensures r.Ok? && Inv(ctx) ==> Inv(r.value)
  {
    match Target(env, ref)
    case None => Ok(ctx)
    case Some(node) =>
      match node
      case Page(_, _, _) => Ok(ctx)
      case Element(_, _, _, _) =>
        var ctx' :- CollectElementRef(env, ctx, node, ref);
        assert Consistent(env, ctx) ==> Consistent(env, ctx') && forall k :: k in ctx.state ==> ctx'.state[k] == ctx.state[k] by {
          if Consistent(env, ctx) {
            RecordKeepsConsistent(env, ctx, ctx', ref);
          }
        }
        Ok(ctx')
      case DerivedState(_, _, _, _) =>
        var ctx' := CollectDerivedRef(env, ctx, node, ref);
        assert Consistent(env, ctx) ==> Consistent(env, ctx') && forall k :: k in ctx.state ==> ctx'.state[k] == ctx.state[k] by {
          if Consistent(env, ctx) {
            RecordKeepsConsistent(env, ctx, ctx', ref);
          }
        }
        Ok(ctx')
  }

  // ----- The whole page -----

  /** The references one property value makes: the interpolations of a bound
      expression (none when it does not parse), or a direct binding. */
  function PropRefs(services: Services, prop: Option<PropValue>): seq<string> {
    match prop
    case Some(BoundExpression(template, _)) => services.interpolations(template).GetOr([])
    case Some(Binding(ref)) => [ref]
    case _ => []
  }

  function PropsRefs(services: Services, props: seq<Option<PropValue>>): seq<string>
    decreases |props|
  {
    if |props| == 0 then [] else PropRefs(services, props[0]) + PropsRefs(services, props[1..])
  }

  /** Every reference made by the properties of the nodes `ids`. */
  function NodesRefs(env: Env, ids: seq<NodeId>): seq<string>
    requires forall i :: 0 <= i < |ids| ==> ids[i] in env.dom.nodes
    decreases |ids|
  {
    if |ids| == 0 then []
    else PropsRefs(env.services, Values(env.dom.nodes[ids[0]].props)) + NodesRefs(env, ids[1..])
  }

  /** A template that does not parse. */
  predicate Unparsable(services: Services, prop: Option<PropValue>) {
    prop.Some? && prop.value.BoundExpression? && services.interpolations(prop.value.template).None?
  }

  /** Collects `refs` in order. */
  function CollectReferences(env: Env, ctx: Context, refs: seq<string>): (r: Result<Context, CompileError>)
    requires WellFormed(env.dom)
    ensures r.Ok? ==> Extends(ctx, r.value) && OnlyBindingsChange(ctx, r.value)
    ensures r.Ok? ==> forall ref :: ref in refs ==> Covered(env, r.value, ref)
    ensures r.Ok? && Consistent(env, ctx) ==>
      Consistent(env, r.value) && forall k :: k in ctx.state ==> r.value.state[k] == ctx.state[k]
    ensures r.Ok? && Inv(ctx) ==> Inv(r.value)
    decreases |refs|
  {
    if |refs| == 0 then Ok(ctx)
    else
      var ctx1 :- CollectInterpolation(env, ctx, refs[0]);
      var ctx2 :- CollectReferences(env, ctx1, refs[1..]);
      assert forall ref :: ref in refs ==> ref == refs[0] || ref in refs[1..];
      Ok(ctx2)
  }

  /** One property value: the interpolations of a bound expression, or a
      direct binding; a template that does not parse aborts. */
  function CollectProp(env: Env, ctx: Context, prop: Option<PropValue>): (r: Result<Context, CompileError>)
    requires WellFormed(env.dom)
    ensures Unparsable(env.services, prop) ==> r == Err(ParseError(prop.value.template))
    ensures r.Ok? ==> Extends(ctx, r.value) && OnlyBindingsChange(ctx, r.value)
    ensures r.Ok? ==> forall ref :: ref in PropRefs(env.services, prop) ==> Covered(env, r.value, ref)
    ensures r.Ok? && Consistent(env, ctx) ==>
      Consistent(env, r.value) && forall k :: k in ctx.state ==> r.value.state[k] == ctx.state[k]
    ensures r.Ok? && Inv(ctx) ==> Inv(r.value)
  {
    match prop
    case Some(BoundExpression(template, _)) =>
      (match env.services.interpolations(template)
       case Some(refs) => CollectReferences(env, ctx, refs)
       case None => Err(ParseError(template)))
    case Some(Binding(ref)) => CollectInterpolation(env, ctx, ref)
    case _ => Ok(ctx)
  }

  /** The `forEach` over the property values of one node. */
  function CollectProps(env: Env, ctx: Context, props: seq<Option<PropValue>>): (r: Result<Context, CompileError>)
    requires WellFormed(env.dom)
    ensures (exists i :: 0 <= i < |props| && Unparsable(env.services, props[i])) ==> r.Err?
    ensures r.Ok? ==> Extends(ctx, r.value) && OnlyBindingsChange(ctx, r.value)
    ensures r.Ok? ==> forall ref :: ref in PropsRefs(env.services, props) ==> Covered(env, r.value, ref)
    ensures r.Ok? && Consistent(env, ctx) ==>
      Consistent(env, r.value) && forall k :: k in ctx.state ==> r.value.state[k] == ctx.state[k]
    ensures r.Ok? && Inv(ctx) ==> Inv(r.value)
    decreases |props|
  {
    if |props| == 0 then Ok(ctx)
    else
      var ctx1 :- CollectProp(env, ctx, props[0]);
      var ctx2 :- CollectProps(env, ctx1, props[1..]);
      assert forall i :: 1 <= i < |props| ==> props[i] == props[1..][i - 1];
      assert forall ref :: ref in PropsRefs(env.services, props) ==>
        ref in PropRefs(env.services, props[0]) || ref in PropsRefs(env.services, props[1..]);
      Ok(ctx2)
  }

  /** The `forEach` over the nodes `ids`. */
  function CollectNodes(env: Env, ctx: Context, ids: seq<NodeId>): (r: Result<Context, CompileError>)
    requires WellFormed(env.dom)
    requires forall i :: 0 <= i < |ids| ==> ids[i] in env.dom.nodes
    ensures r.Ok? ==> Extends(ctx, r.value) && OnlyBindingsChange(ctx, r.value)
    ensures r.Ok? ==> forall ref :: ref in NodesRefs(env, ids) ==> Covered(env, r.value, ref)
    ensures r.Ok? && Consistent(env, ctx) ==>
      Consistent(env, r.value) && forall k :: k in ctx.state ==> r.value.state[k] == ctx.state[k]
    ensures r.Ok? && Inv(ctx) ==> Inv(r.value)
    decreases |ids|
  {
    if |ids| == 0 then Ok(ctx)
    else
      var ctx1 :- CollectProps(env, ctx, Values(env.dom.nodes[ids[0]].props));
      var ctx2 :- CollectNodes(env, ctx1, ids[1..]);
      Ok(ctx2)
  }

  /** `collectAllState()`: discovery over every descendant of the page. On
      success every reference to an element or derived state node in the page
      has an accessor, every accessor agrees with the hook tables, and nothing
      but the hook tables, the accessors and the scope changed. */
  function CollectAllState(env: Env, ctx: Context): (r: Result<Context, CompileError>)
    requires WellFormed(env.dom)
    ensures r.Ok? ==> Extends(ctx, r.value) && OnlyBindingsChange(ctx, r.value)
    ensures r.Ok? ==> forall ref :: ref in NodesRefs(env, GetDescendants(env.dom, ctx.page)) ==> Covered(env, r.value, ref)
    ensures r.Ok? && Consistent(env, ctx) ==> Consistent(env, r.value)
    ensures r.Ok? && Inv(ctx) ==> Inv(r.value)
  {
    CollectNodes(env, ctx, GetDescendants(env.dom, ctx.page))
  }

  // ----- Memo hooks name derived state nodes -----

  lemma DerivedRefKeepsMemos(env: Env, ctx: Context, node: Node, ref: string)
    requires WellFormed(env.dom)
    requires Target(env, ref) == Some(node) && node.DerivedState?
    requires MemosDerived(env.dom, ctx.memoHooks)
    ensures MemosDerived(env.dom, CollectDerivedRef(env, ctx, node, ref).memoHooks)
  {
    assert CollectDerivedRef(env, ctx, node, ref).memoHooks == MemoFor(env, ctx, node).1.memoHooks;
  }

  lemma InterpolationKeepsMemos(env: Env, ctx: Context, ref: string)
    requires WellFormed(env.dom)
    requires MemosDerived(env.dom, ctx.memoHooks)
    ensures CollectInterpolation(env, ctx, ref).Ok? ==>
      MemosDerived(env.dom, CollectInterpolation(env, ctx, ref).value.memoHooks)
  {
    match Target(env, ref)
    case None =>
    case Some(node) =>
      if node.DerivedState? {
        DerivedRefKeepsMemos(env, ctx, node, ref);
      }
  }

  lemma {:induction false} ReferencesKeepMemos(env: Env, ctx: Context, refs: seq<string>)
    requires WellFormed(env.dom)
    requires MemosDerived(env.dom, ctx.memoHooks)
    ensures CollectReferences(env, ctx, refs).Ok? ==>
      MemosDerived(env.dom, CollectReferences(env, ctx, refs).value.memoHooks)
    decreases |refs|
  {
    if |refs| > 0 {
      InterpolationKeepsMemos(env, ctx, refs[0]);
      var first := CollectInterpolation(env, ctx, refs[0]);
      if first.Ok? {
        ReferencesKeepMemos(env, first.value, refs[1..]);
      }
    }
  }

  lemma PropKeepsMemos(env: Env, ctx: Context, prop: Option<PropValue>)
    requires WellFormed(env.dom)
    requires MemosDerived(env.dom, ctx.memoHooks)
    ensures CollectProp(env, ctx, prop).Ok? ==> MemosDerived(env.dom, CollectProp(env, ctx, prop).value.memoHooks)
  {
    match prop
    case Some(BoundExpression(template, _)) =>
      if env.services.interpolations(template).Some? {
        ReferencesKeepMemos(env, ctx, env.services.interpolations(template).value);
      }
    case Some(Binding(ref)) => InterpolationKeepsMemos(env, ctx, ref);
    case _ =>
  }

  lemma {:induction false} PropsKeepMemos(env: Env, ctx: Context, props: seq<Option<PropValue>>)
    requires WellFormed(env.dom)
    requires MemosDerived(env.dom, ctx.memoHooks)
    ensures CollectProps(env, ctx, props).Ok? ==>
      MemosDerived(env.dom, CollectProps(env, ctx, props).value.memoHooks)
    decreases |props|
  {
    if |props| > 0 {
      PropKeepsMemos(env, ctx, props[0]);
      var first := CollectProp(env, ctx, props[0]);
      if first.Ok? {
        PropsKeepMemos(env, first.value, props[1..]);
      }
    }
  }

  lemma {:induction false} NodesKeepMemos(env: Env, ctx: Context, ids: seq<NodeId>)
    requires WellFormed(env.dom)
    requires forall i :: 0 <= i < |ids| ==> ids[i] in env.dom.nodes
    requires MemosDerived(env.dom, ctx.memoHooks)
    ensures CollectNodes(env, ctx, ids).Ok? ==>
      MemosDerived(env.dom, CollectNodes(env, ctx, ids).value.memoHooks)
    decreases |ids|
  {
    if |ids| > 0 {
      var props := Values(env.dom.nodes[ids[0]].props);
      PropsKeepMemos(env, ctx, props);
      var first := CollectProps(env, ctx, props);
      if first.Ok? {
        NodesKeepMemos(env, first.value, ids[1..]);
      }
    }
  }

  /** After discovery every memo hook belongs to a derived state node, so
      declaring the memo hooks never meets anything else. */
  lemma AllStateKeepsMemos(env: Env, ctx: Context)
    requires WellFormed(env.dom)
    ensures MemosDerived(env.dom, ctx.memoHooks) && CollectAllState(env, ctx).Ok? ==>
      MemosDerived(env.dom, CollectAllState(env, ctx).value.memoHooks)
  {
    if MemosDerived(env.dom, ctx.memoHooks) {
      NodesKeepMemos(env, ctx, GetDescendants(env.dom, ctx.page));
    }
  }
}

=== FILE: studio_dom.dfy ===
/** The document being compiled (`studioDom`), as the compiler sees it: nodes
    by id, the name-to-id lookup, the descendants of a node, and the child
    slots of a node. Its own mutation API is not part of this model. */
module StudioDom {
  import opened Base
  import opened Records
  import opened Types

  /** A document node. Page and element nodes form the rendered tree; derived
      state nodes are pure computations with their own typed arguments. */
  datatype Node =
    | Page(id: NodeId, name: string, props: Entries<Option<PropValue>>)
    | Element(id: NodeId, name: string, component: string, props: Entries<Option<PropValue>>)
    | DerivedState(id: NodeId, name: string, argTypes: map<string, PropType>, props: Entries<Option<PropValue>>)

  /** `descendants[id]` is `getDescendants(dom, node)`; `childNodes[id]` is
      `getChildNodes(dom, node)` (child slot name to ordered child ids);
      `height[id]` bounds the depth of the subtree below a node. */
  datatype Document = Document(
    nodes: map<NodeId, Node>,
    nodeIdByName: map<string, NodeId>,
    descendants: map<NodeId, seq<NodeId>>,
    childNodes: map<NodeId, Entries<seq<NodeId>>>,
    height: map<NodeId, nat>)

  /** `c` is a child that lies strictly below `p` in the tree. */
  predicate Below(dom: Document, p: NodeId, c: NodeId) {
    c in dom.nodes && p in dom.height && c in dom.height && dom.height[c] < dom.height[p]
  }

  /** What the document API guarantees: ids are non-empty and index their
      nodes, name lookups and descendants name existing nodes, and the child
      relation is a forest (every child sits lower than its parent). */
  predicate WellFormed(dom: Document) {
    && (forall id :: id in dom.nodes ==> id != "" && dom.nodes[id].id == id && id in dom.height)
    && (forall n :: n in dom.nodeIdByName ==>
          dom.nodeIdByName[n] in dom.nodes && dom.nodes[dom.nodeIdByName[n]].name == n)
    && (forall p, i :: p in dom.descendants && 0 <= i < |dom.descendants[p]| ==>
          dom.descendants[p][i] in dom.nodes)
    && (forall p, i, j :: p in dom.childNodes && 0 <= i < |dom.childNodes[p]| && 0 <= j < |dom.childNodes[p][i].1| ==>
          Below(dom, p, dom.childNodes[p][i].1[j]))
  }

  /** `getNodeIdByName(dom, name)`. */
  function GetNodeIdByName(dom: Document, name: string): (r: Option<NodeId>)
    requires WellFormed(dom)
    ensures r.Some? ==> r.value in dom.nodes && dom.nodes[r.value].name == name
    ensures r.None? <==> name !in dom.nodeIdByName
  {
    if name in dom.nodeIdByName then Some(dom.nodeIdByName[name]) else None
  }

  /** `getDescendants(dom, node)`, as ids. */
  function GetDescendants(dom: Document, id: NodeId): (r: seq<NodeId>)
    requires WellFormed(dom)
    ensures forall i :: 0 <= i < |r| ==> r[i] in dom.nodes
  {
    if id in dom.descendants then dom.descendants[id] else []
  }

  /** `getChildNodes(dom, node)`, as ids. */
  function GetChildNodes(dom: Document, id: NodeId): (r: Entries<seq<NodeId>>)
    requires WellFormed(dom)
    ensures forall i, j :: 0 <= i < |r| && 0 <= j < |r[i].1| ==> Below(dom, id, r[i].1[j])
  {
    if id in dom.childNodes then dom.childNodes[id] else []
  }
}

=== FILE: text.dfy ===
/** `String.prototype.split` on a one-character separator and
    `Array.prototype.join`, with the round trip between them. References such
    as `input.value.length` are split on '.' and accessors are joined with '.'. */
module Text {

  /** `s.split(sep)`: the maximal separator-free pieces of `s`, in order. */
  function Split(s: string, sep: char): (parts: seq<string>)
    ensures |parts| >= 1
    ensures forall i :: 0 <= i < |parts| ==> sep !in parts[i]
    decreases |s|
  {
    if |s| == 0 then [""]
    else
      var rest := Split(s[1..], sep);
      if s[0] == sep then [""] + rest
      else [[s[0]] + rest[0]] + rest[1..]
  }

  /** `parts.join(sep)`; joining no parts gives the empty string. */
  function Join(parts: seq<string>, sep: string): string
    decreases |parts|
  {
    if |parts| == 0 then ""
    else if |parts| == 1 then parts[0]
    else parts[0] + sep + Join(parts[1..], sep)
  }

  /** A character absent from the pieces and the separator is absent from the join. */
  lemma {:induction false} JoinAvoids(parts: seq<string>, sep: string, c: char)
    requires c !in sep
    requires forall i :: 0 <= i < |parts| ==> c !in parts[i]
    ensures c !in Join(parts, sep)
    decreases |parts|
  {
    if |parts| > 1 {
      JoinAvoids(parts[1..], sep, c);
    }
  }

  /** Joining two non-empty lists is joining each and separating the halves. */
  lemma {:induction false} JoinAppend(a: seq<string>, b: seq<string>, sep: string)
    requires |a| >= 1 && |b| >= 1
    ensures Join(a + b, sep) == Join(a, sep) + sep + Join(b, sep)
    decreases |a|
  {
    if |a| == 1 {
      assert (a + b)[1..] == b;
    } else {
      JoinAppend(a[1..], b, sep);
      assert (a + b)[1..] == a[1..] + b;
    }
  }

  lemma JoinCons(head: string, tail: seq<string>, sep: string)
    requires |tail| >= 1
    ensures Join([head] + tail, sep) == head + sep + Join(tail, sep)
  {
    assert ([head] + tail)[1..] == tail;
  }

  /** Joining the pieces of a split with the same separator gives the string back. */
  lemma {:induction false} JoinSplit(s: string, sep: char)
    ensures Join(Split(s, sep), [sep]) == s
    decreases |s|
  {
    if |s| > 0 {
      var rest := Split(s[1..], sep);
      JoinSplit(s[1..], sep);
      if s[0] == sep {
        JoinCons("", rest, [sep]);
        assert s == [sep] + s[1..];
      } else if |rest| == 1 {
        assert Split(s, sep) == [[s[0]] + rest[0]];
        assert s == [s[0]] + s[1..];
      } else {
        var parts := Split(s, sep);
        assert parts == [[s[0]] + rest[0]] + rest[1..];
        JoinCons([s[0]] + rest[0], rest[1..], [sep]);
        JoinCons(rest[0], rest[1..], [sep]);
        assert rest == [rest[0]] + rest[1..];
        assert s == [s[0]] + s[1..];
      }
    }
  }

  /** A separator-free string splits to itself. */
  lemma {:induction false} SplitPlain(a: string, sep: char)
    requires sep !in a
    ensures Split(a, sep) == [a]
    decreases |a|
  {
    if |a| > 0 {
      SplitPlain(a[1..], sep);
      assert [a[0]] + a[1..] == a;
    }
  }

  /** Splitting stops at the first separator. */
  lemma {:induction false} SplitAtSeparator(a: string, sep: char, b: string)
    requires sep !in a
    ensures Split(a + [sep] + b, sep) == [a] + Split(b, sep)
    decreases |a|
  {
    var s := a + [sep] + b;
    if |a| == 0 {
      assert s[1..] == b;
    } else {
      assert s[1..] == a[1..] + [sep] + b;
      SplitAtSeparator(a[1..], sep, b);
      assert [a[0]] + a[1..] == a;
    }
  }

  /** Splitting a join of separator-free pieces gives the pieces back. */
  lemma {:induction false} SplitJoin(parts: seq<string>, sep: char)
    requires |parts| >= 1
    requires forall i :: 0 <= i < |parts| ==> sep !in parts[i]
    ensures Split(Join(parts, [sep]), sep) == parts
    decreases |parts|
  {
    if |parts| == 1 {
      SplitPlain(parts[0], sep);
    } else {
      SplitJoin(parts[1..], sep);
      SplitAtSeparator(parts[0], sep, Join(parts[1..], [sep]));
      assert [parts[0]] + parts[1..] == parts;
    }
  }

  /** A string followed by a separator and a separator-free suffix determines
      both halves: the suffix is whatever follows the last separator. */
  lemma LastSeparatorSplits(a: string, p: string, b: string, q: string, sep: char)
    requires sep !in p && sep !in q
    requires a + [sep] + p == b + [sep] + q
    ensures a == b && p == q
  {
    var s := a + [sep] + p;
    var t := b + [sep] + q;
    var n := |s|;
    assert s[n - |p| - 1] == sep;
    assert t[n - |q| - 1] == sep;
    assert forall k :: n - |q| <= k < n ==> t[k] == q[k - (n - |q|)];
    assert forall k :: n - |p| <= k < n ==> s[k] == p[k - (n - |p|)];
    assert |p| == |q|;
    assert p == s[n - |p|..];
    assert q == (b + [sep] + q)[n - |q|..];
    assert a == s[..|a|];
    assert b == (b + [sep] + q)[..|b|];
  }
}

=== FILE: types.dfy ===
/** The values the page compiler consumes and produces: constant values, node
    property values, component argument descriptors, component definitions,
    resolved property expressions, the opaque services it calls, and the fatal
    errors that abort a compile. */
module Types {
  import opened Base
  import opened Records

  type NodeId = string

  /** A JSON-serializable constant (numbers are modelled as integers). */
  datatype Value =
    | Null
    | Bool(b: bool)
    | Number(n: int)
    | Str(s: string)
    | Array(items: seq<Value>)
    | Object(fields: seq<(string, Value)>)

  /** A property value stored on a node (`StudioNodeProp`). `UnknownTag`
      stands for any other `type` tag, which the compiler only warns about. */
  datatype PropValue =
    | Const(value: Value)
    | Binding(reference: string)
    | BoundExpression(template: string, format: Option<string>)
    | UnknownTag(tag: string)

  /** The `type` of an argument's type definition. */
  datatype PropType = DataQueryType | ElementType | OtherType(name: string)

  /** The `type` of an argument's editor control. */
  datatype ControlKind = SlotControl | SlotsControl | OtherControl(name: string)

  datatype ChangeHandler = ChangeHandler(params: seq<string>, valueGetter: string)

  /** An argument descriptor of a component definition. */
  datatype ArgType = ArgType(
    typeDef: PropType,
    defaultValue: Option<Value>,
    defaultValueProp: Option<string>,
    onChangeProp: Option<string>,
    onChangeHandler: Option<ChangeHandler>,
    control: Option<ControlKind>)

  /** A rendered property (`PropExpression`): source text of one of three
      kinds, or an expression whose value is JavaScript `undefined` (what a
      binding to a reference discovery never resolved produces). */
  datatype PropExpression =
    | Expression(value: string)
    | JsxElement(value: string)
    | JsxFragment(value: string)
    | UndefinedExpression

  /** The entry as a template literal interpolates it: its text, or
      `undefined`. The `$spread` entry is printed this way. */
  function Verbatim(e: PropExpression): (r: string)
    ensures !e.UndefinedExpression? ==> r == e.value
    ensures e.UndefinedExpression? ==> r == "undefined"
  {
    match e
    case UndefinedExpression => "undefined"
    case _ => e.value
  }

  /** Resolved properties of one node, keyed by output property name; the key
      `$spread` holds spread attributes, rendered verbatim. */
  type ResolvedProps = Entries<PropExpression>

  const SpreadKey: string := "$spread"

  /** An `addImport` call a component's render function makes. */
  datatype ImportRequest = ImportRequest(source: string, imported: string, suggestedName: string)

  /** What a component's render function produces: the imports it asks for,
      and its source text as a function of the aliases those imports got. */
  datatype ComponentOutput = ComponentOutput(imports: seq<ImportRequest>, text: seq<string> -> string)

  /** A component definition of the catalog; `argTypes` entries may be
      `undefined` (`None`). */
  datatype ComponentDef = ComponentDef(
    argTypes: Entries<Option<ArgType>>,
    render: ResolvedProps -> ComponentOutput)

  /** The collaborators the compiler calls without seeing their code.
      `interpolations` is `getInterpolations(parse(template))`, `None` when
      `parse` throws; `formatBound` is `format(resolve(parse(template), lookup), format)`
      with the reference-to-accessor map as lookup, `None` when `parse`
      throws; `stringify` is `JSON.stringify`; `camelCase` joins words. */
  datatype Services = Services(
    interpolations: string -> Option<seq<string>>,
    formatBound: (string, map<string, string>, Option<string>) -> Option<string>,
    stringify: Value -> string,
    camelCase: seq<string> -> string)

  /** The fatal errors of a compile. */
  datatype CompileError =
    | MissingComponent(nodeId: NodeId)
    | MissingArgType(nodeName: string, prop: string)
    | NotControlled(nodeName: string, prop: string)
    | UnsupportedDataQueryBinding(prop: string)
    | ParseError(template: string)
    | ImportsSealed(source: string)
    | NotDerivedState(nodeId: NodeId)
    | NotPage(nodeId: NodeId)
}
